=== FILE: README.md ===
# mydns: a verified model of the DNS codec and the resolver step

`mydns.py` is a small iterative DNS resolver. It builds an A-record query
(`create_query`) and sends it over UDP to a server, starting at a root
server. It decodes the reply (`parse_response`, which uses
`parse_resource`, `parse_name` and `parse_unsigned_int`). Then it stops
with the first type-A answer, or moves on to the server named by the first
type-A additional record. Otherwise it gives up.

This project models that codec and that decision in Dafny and proves
properties of the model. Python's behaviour is written out explicitly:

- subscripts raise IndexError and accept negative indices (`Bytes.At`);
- slices clamp (`Bytes.Slice`);
- `int.to_bytes` raises OverflowError (`Bytes.ToBytes`);
- `str.split` keeps empty pieces (`Labels.Split`).

The decoder's shortcuts are kept as the code writes them, and a lemma
exhibits each of them:

- `end` is overwritten on every pointer hop (`Names.PointerChainEnd`, for
  every chain of two pointers);
- the answer and additional sections assume a two-byte owner name
  (`Quirks.SampleAsAnswer`, a concrete record);
- an empty label is sent as a zero byte (`QueryQuirks.DoubleDotEncoded` and
  `QueryQuirks.DoubleDotDecoded`, the query for "a..b");
- the length byte counts characters, not UTF-8 bytes (`Query.Utf8Length` in
  general, `QueryQuirks.AccentEncoded` and `QueryQuirks.AccentMisframed` on
  a concrete query);
- `if next_dns_ip:` treats empty RDATA as "no server" (`Resolver.StepSpec`,
  for every response).

Modules, in dependency order:

- `Results`: the result type and the exceptions.
- `Bytes`: Python `bytes` operations and big-endian integers.
- `Labels`: split/join and the uncompressed label wire form.
- `Names`: `parse_name`.
- `Hops`: why the pointer-hop budget given to `parse_name` is enough.
- `Query`: `create_query` and UTF-8.
- `Message`: `parse_resource` and `parse_response`.
- `Sections`: the section layout `parse_response` reads.
- `Wire`: encode/decode round trips.
- `Quirks`, `QueryQuirks`: concrete messages.
- `Resolver`: the loop of `resolve` over decoded replies.

## Model

| member | source | states |
|---|---|---|
| Bytes.At | mydns.py:43-59 | A byte subscript succeeds exactly for indices in -len..len-1; a negative index counts from the end; anything else is IndexError carrying the index |
| Bytes.Slice | mydns.py:33 | `r[a:b]` never fails, is never longer than the buffer, and for a non-negative start is never longer than b - a |
| Bytes.SliceInBounds | mydns.py:80 | A slice whose bounds lie inside the buffer is exactly the bytes between them (the clamped slice agrees with the mathematical one) |
| Bytes.FromBytes | mydns.py:32-33 | `int.from_bytes(s, "big")` of n bytes is below 256^n; `Bytes.DecodeEncode` and `Bytes.EncodeDecode` show it is the inverse of big-endian encoding |
| Bytes.ToBytes | mydns.py:7 | `to_bytes(n)` succeeds exactly when 0 <= v < 256^n, gives n bytes that read back as v, and otherwise raises OverflowError |
| Bytes.DecodeEncode | mydns.py:7 | Reading back the big-endian encoding of a value that fits gives the value |
| Bytes.EncodeDecode | mydns.py:32-33 | Encoding the value read from any byte string, at its length, gives the string back |
| Bytes.ParseUnsignedInt | mydns.py:31-34 | The index always advances by byte_length, even past the buffer; the value fits in byte_length bytes; at or past the end it reads 0 |
| Bytes.UnsignedIntBytes | mydns.py:31-34 | Inside the buffer, the value read re-encodes to exactly the bytes it was read from |
| Labels.Split | mydns.py:18 | `split('.')` always yields at least one piece, and no piece contains the separator |
| Labels.JoinSplit | mydns.py:18 | Joining the split pieces with '.' gives back the original name |
| Labels.SplitJoin | mydns.py:18 | Splitting the join of separator-free pieces gives back the pieces, empty ones included |
| Names.NameStep | mydns.py:43-60 | A label step moves strictly forward and stays inside the buffer; a step that fails fails with IndexError |
| Names.NameLoop | mydns.py:41-62 | A decode fails only with IndexError (a subscript outside the buffer) or, when the hop budget runs out, HopLimit; Hops.HopLimitMeansEndless states when the latter happens |
| Names.ParseName | mydns.py:37-62 | A decode starting at or past the end fails with IndexError at that index; a successful one started at a valid subscript |
| Names.PointerArithmetic | mydns.py:50-51 | The big-endian pointer value minus 0xC000 is the 14-bit target offset |
| Names.PointerTo | mydns.py:48-51 | The two-byte compression pointer to t has its top bits set and targets t |
| Names.PointerStep | mydns.py:48-51 | A pointer moves decoding to its target and makes the resumption point the pointer + 2, whatever it was before |
| Names.LabelStep | mydns.py:53-60 | A label appends its bytes, then '.' exactly when the following byte is not zero, and moves past the label |
| Names.ZeroStep | mydns.py:43-46 | A zero byte ends decoding; the resumption point is the byte after it only if no pointer has set one |
| Names.ParseNameLabels | mydns.py:37-62 | An uncompressed name of labels of 1 to 191 bytes (any length byte below 0xC0) decodes to its labels joined by '.', and the caller resumes right after its terminating zero |
| Names.ParseNamePointer | mydns.py:48-51 | A name that is one pointer to an uncompressed name decodes to that name, and the caller resumes after the two pointer bytes |
| Names.ParseNameSuffix | mydns.py:37-62 | Labels followed by a pointer decode to the inline labels, then the pointed-to labels, all joined by '.'; the caller resumes after the pointer |
| Names.PointerChainEnd | mydns.py:49 | On a chain of two pointers, the resumption point is the second pointer + 2, because `end` is overwritten on every hop |
| Names.SelfPointer | mydns.py:41-51 | A pointer to itself never reaches a terminator: every hop budget runs out |
| Names.FuelMonotone | mydns.py:41 | Any decode that ends without running out of hops gives the same result with a larger budget |
| Hops.StepShape | mydns.py:43-60 | Where the loop goes next (stop, hop target, next label) depends only on the buffer and the index, not on the name or `end` built so far; a hop happens only at a valid subscript; a stop is never a hop-limit failure |
| Hops.FirstHop | mydns.py:41-60 | The first pointer met from an index, reading labels only, is at a valid subscript |
| Hops.LoopIter | mydns.py:41-51 | A decode runs out of f hops exactly when f + 1 pointers are met along its way |
| Hops.HopBoundSuffices | mydns.py:41-51 | A decode that runs out of the 2·len(buffer) hops the model allows runs out of every budget: it has met some pointer twice and repeats forever |
| Hops.HopLimitMeansEndless | mydns.py:37-62 | parse_name fails with HopLimit exactly when every hop budget runs out, that is, exactly where the Python resolver's loop never ends |
| Query.Utf8 | mydns.py:21 | `bytes(label, 'utf-8')` gives one to four bytes per character. `Query.Utf8Char`, `Query.Utf8Append`, `Query.Utf8Length` and `Query.Utf8OfAscii` state what those bytes are |
| Query.Utf8Char | mydns.py:21 | A character encodes to 1 to 4 bytes; it is one byte exactly for ASCII, which encodes to its code point; longer encodings use only bytes >= 0x80 |
| Query.Utf8Append | mydns.py:21 | Encoding a concatenation is the concatenation of the encodings |
| Query.Utf8Length | mydns.py:20-21 | A label's UTF-8 bytes are at least as many as its characters, and equally many exactly when it is ASCII: only then does the length byte frame the label correctly |
| Query.Utf8OfAscii | mydns.py:21 | ASCII text encodes byte for byte to its code points |
| Query.Utf8Join | mydns.py:18-21 | Encoding each label and joining with '.' is encoding the joined string |
| Query.EncodeRun | mydns.py:19-21 | The label loop succeeds exactly when every label has fewer than 256 characters; otherwise it raises OverflowError |
| Query.EncodeQName | mydns.py:19-23 | QNAME is encoded under the same condition and always ends in a zero byte |
| Query.CreateQuery | mydns.py:5-28 | The query is built exactly when the ID fits 16 bits and every label has fewer than 256 characters (else OverflowError). It starts with the ID and the fixed header (flags 0, QDCOUNT 1, other counts 0) and ends with the terminator, QTYPE 1 and QCLASS 1 |
| Query.EncodeRunFramed | mydns.py:19-21 | Labels of 1 to 63 ASCII characters are written in the uncompressed wire form of their bytes |
| Query.QueryLayout | mydns.py:5-28 | For such labels the query is ID, header tail, uncompressed QNAME, QTYPE and QCLASS |
| Query.JoinQueryLabels | mydns.py:18 | The query's labels, joined again, are the domain name's UTF-8 bytes |
| Query.EncodeRunSize | mydns.py:19-21 | The label run is one length byte plus the UTF-8 bytes of each label |
| Query.QueryLength | mydns.py:5-28 | Every query is 12 + Σ(1 + UTF-8 length of each label) + 5 bytes long |
| Message.OwnerEnd | mydns.py:69-74 | The owner name comes from parse_name either way. With the owner skip the fields start two bytes after the owner; without it they start where the name ended. It fails exactly when the name fails |
| Message.ParseRecord | mydns.py:68-86 | A decoded record carries the owner name and the TYPE, CLASS and TTL stored after it; it ends RDLENGTH bytes after the fixed part; its data is a host name exactly for NS. A failing owner name fails the record |
| Message.RecordFields | mydns.py:75-86 | Reading the fields fails only for an NS record whose RDATA name fails; the record read carries the stored fields |
| Message.RecordData | mydns.py:79-86 | RDATA decoding fails only for NS; it yields a host name exactly when the type is NS |
| Message.RecordPayload | mydns.py:79-86 | An NS record's data is the name decoded where its RDATA starts (RDLENGTH is ignored); any other record's data is the clamped slice of RDLENGTH bytes there |
| Message.ParseRecords | mydns.py:65-87 | A successful parse yields exactly `count` records; count 0 yields none and leaves the index unchanged |
| Message.ParseRecordsChained | mydns.py:65-87 | parse_resource returns (recs, end) exactly when there are `count` records, each parsed where the previous one's RDATA ended, the last ending at `end` |
| Message.ParseQuestion | mydns.py:104-107 | A question succeeds exactly when its name does. It carries that name, QTYPE is the big-endian 16-bit field where the name ends and QCLASS the one 2 bytes later, and it ends 4 bytes after the name |
| Message.ParseQuestions | mydns.py:102-107 | A successful parse yields exactly `count` questions; count 0 yields none and leaves the index unchanged |
| Message.ParseQuestionsAt | mydns.py:102-107 | The question loop returns (qs, end) exactly when there are `count` questions, each parsed where the previous one ended, the last ending at `end` |
| Message.ParseResponse | mydns.py:90-123 | The ID and the four section sizes are the header fields at offsets 0, 4, 6, 8 and 10; an empty buffer parses to an empty response, since the header reads never fail |
| Sections.SectionsParse | mydns.py:93-114 | Any response whose sections sit back to back from offset 12, sized by the header counts (answers and additionals with the owner skip, authorities without), is what parse_response returns |
| Sections.ParseSections | mydns.py:93-114 | Every successful parse_response result is laid out that way in the buffer |
| Wire.ReadBack | mydns.py:31-34 | A big-endian field written at an offset is read back as the value written |
| Wire.ReadFixed | mydns.py:75-78 | TYPE, CLASS, TTL and RDLENGTH written in a record's fixed part are read back |
| Wire.RecordRoundTrip | mydns.py:73-86 | A non-NS record with an uncompressed owner, read without the owner skip, comes back field for field; the next record starts right after its RDATA |
| Wire.NsRecordRoundTrip | mydns.py:82-84 | An NS record whose RDATA is an uncompressed name comes back with that name as its data |
| Wire.PointerOwnerRoundTrip | mydns.py:69-72 | A record whose owner is a compression pointer, read with the owner skip, comes back with the pointed-to owner; it ends 12 + RDLENGTH bytes after its start |
| Wire.ReadHeader | mydns.py:93-99 | The header create_query writes reads back as its ID, one question and no records |
| Wire.ReadQuestion | mydns.py:104-106 | A question written as QNAME, QTYPE A and QCLASS IN reads back as the joined name, A and IN |
| Wire.ReadQuery | mydns.py:90-123 | A query laid out as create_query lays it out parses to its ID and its one question, with no records |
| Wire.QueryRoundTrip | mydns.py:5-28 | parse_response of create_query(id, d), for 1 to 63 ASCII characters per label, gives back the ID, one question for d with QTYPE A and QCLASS IN, and no records |
| Wire.QueryNameRoundTrip | mydns.py:16-23 | parse_name(12, create_query(id, d)) gives back d and the offset of QTYPE, one past the terminating zero |
| Quirks.SampleAsAuthority | mydns.py:73-74 | The record "a A IN 60 10.0.0.1" read without the owner skip comes back as written |
| Quirks.SampleAsAnswer | mydns.py:69-72 | The same record read with the owner skip takes its fields from inside the owner name. It reads TYPE 0, CLASS 256, TTL 2^24 and an RDLENGTH of 15360, clamped to the last 5 bytes, so the next record is sought far past the buffer |
| QueryQuirks.DoubleDotEncoded | mydns.py:18-23 | The query for "a..b" sends the empty middle label as a zero byte |
| QueryQuirks.DoubleDotDecoded | mydns.py:43-46 | That query parses back as a question for "a" with QTYPE 354 and QCLASS 0, since the empty label's zero byte ends the name |
| QueryQuirks.AccentEncoded | mydns.py:20-21 | The query for the two-character name U+00E9 U+0061 has length byte 2 followed by three UTF-8 bytes |
| QueryQuirks.AccentMisframed | mydns.py:54-59 | That query fails to parse back. The first label is read as the two bytes of the e acute, which decode as UTF-8. The "a" (97) is then read as the next label's length; that label's slice is clamped to the 5 bytes left, which also decode. The subscript after it raises IndexError at 113 |
| Resolver.FirstA | mydns.py:169-179 | The position found holds the first type-A record: every earlier record has another type, and there is none when the position is past the end |
| Resolver.FirstAUnique | mydns.py:169-179 | The first type-A record is unique and is the one FirstA finds |
| Resolver.Step | mydns.py:169-183 | An answer carries the data of the first type-A answer; a referral or a give-up comes only when no answer has type A; a referral carries the data of the first type-A additional and is never to an empty address |
| Resolver.StepSpec | mydns.py:169-183 | A response is answered exactly when some answer has type A, with the first such answer's data. It is referred exactly when no answer has type A and the first type-A additional has non-empty data, to that additional's data. Otherwise resolution gives up |
| Resolver.Resolve | mydns.py:162-183 | The run follows its replies: each referral comes from the reply at its position, and the run ends on the first reply that is not a referral, or stays pending when the replies run out |
| Resolver.ResolveFollows | mydns.py:164-183 | A trace follows the replies exactly when it is the run Resolve computes |
| Resolver.ResolveIgnoresLater | mydns.py:173-183 | Once a run has ended, replies after it change nothing |
| Resolver.ResolveReplies | mydns.py:152-183 | On raw replies, every successful run has at most one referral per reply |
| Resolver.RepliesFail | mydns.py:152-183 | When the replies before the k-th all decode to referrals and the k-th fails to decode, the run fails with that reply's error, as the exception escapes `resolve` (for HopLimit the Python resolver never returns instead) |
| Resolver.RepliesDecoded | mydns.py:152-168 | When every raw reply decodes, the run on raw replies is the run on the decoded responses |

## Left out

- UDP I/O (mydns.py:147-151): `query_dns` sends the query and receives the reply. The resolver takes the replies as a parameter, with `replies[k]` the reply of the k-th server asked. The server addresses and the port are not modelled.
- The 2048-byte `recvfrom` limit (mydns.py:151): longer replies would be truncated, and a reply is any byte string here.
- The fixed ID 1 (mydns.py:148): `CreateQuery` takes any ID. The concrete queries use 1.
- Printing (mydns.py:126-143, 154-158, 166-167): it produces no value the loop uses.
- The command line (mydns.py:186-193): argument handling and process exit.
- Resolver.Resolve: the Python resolver's `while True` loop is unbounded. The model folds over a finite sequence of replies and ends with Pending when they run out.
- UTF-8 decoding of labels (mydns.py:56): decoded names stay as bytes, so the UnicodeDecodeError that a label of invalid UTF-8 raises is not modelled. Such a label decodes successfully here.
- Dotted-quad formatting (mydns.py:172, 178): RDATA is kept as bytes or as a host name. Only the emptiness of the formatted string matters to the loop, and it is modelled by `Resolver.Payload`.
- Names.ParseName: the Python resolver loops forever on a pointer cycle. The model gives the loop a budget of 2·|buffer| pointer hops and fails with HopLimit when it runs out. `Hops.HopLimitMeansEndless` shows that this happens exactly on the inputs where the Python resolver never terminates. Its ensures state only the out-of-range failure; its full behaviour is given by lemmas on specific layouts: uncompressed names, one pointer, labels followed by a pointer, a chain of two pointers, and a self pointer. Arbitrary mixes of labels and pointers are not characterised beyond these.
- Query.CreateQuery: Python strings that contain lone surrogates make `bytes(label, 'utf-8')` raise UnicodeEncodeError. Dafny characters are Unicode scalar values, so that case cannot arise here.
- Bytes.Slice: its ensures bound only the length. Its contents are stated by `Bytes.SliceInBounds` for in-range bounds, which is the only case the round trips use.

=== FILE: bytes.dfy ===
/** Python `bytes` as the codec uses it: subscripts (which accept negative
    indices and raise IndexError otherwise), slices (which clamp silently),
    and the big-endian `int.from_bytes` / `int.to_bytes` conversions. */
module Bytes {
  import opened Results

  type byte = b: int | 0 <= b < 256

  /** 256^n, the number of distinct n-byte values. */
  function Pow256(n: nat): (p: nat)
    ensures p >= 1
  {
    if n == 0 then 1 else 256 * Pow256(n - 1)
  }

  /** `r[i]`: an index in -|r|..-1 counts from the end, anything else
      outside 0..|r|-1 raises IndexError. */
  function At(r: seq<byte>, i: int): (b: Result<byte>)
    ensures b.Success? <==> -|r| <= i < |r|
    ensures 0 <= i < |r| ==> b == Success(r[i])
    ensures -|r| <= i < 0 ==> b == Success(r[|r| + i])
    ensures b.Failure? ==> b.error == IndexError(i)
  {
    if 0 <= i < |r| then Success(r[i])
    else if -|r| <= i < 0 then Success(r[|r| + i])
    else Failure(IndexError(i))
  }

  /** How a slice bound is normalised against a sequence of length n. */
  function ClampBound(i: int, n: nat): (c: nat)
    ensures c <= n
    ensures 0 <= i <= n ==> c == i
  {
    if i < 0 then (if i + n < 0 then 0 else i + n)
    else if i > n then n
    else i
  }

  /** `r[a:b]`: never fails; out-of-range bounds are clamped and an empty
      slice results when the clamped start is not before the clamped stop. */
  function Slice(r: seq<byte>, a: int, b: int): (s: seq<byte>)
    ensures 0 <= a && b - a >= 0 ==> |s| <= b - a
    ensures |s| <= |r|
  {
    var lo := ClampBound(a, |r|);
    var hi := ClampBound(b, |r|);
    if lo < hi then Sub(r, lo, hi) else []
  }

  /** The bytes of r from lo up to hi, collected one by one. */
  function Sub(r: seq<byte>, lo: nat, hi: nat): (s: seq<byte>)
    requires lo <= hi <= |r|
    ensures |s| == hi - lo
    decreases hi - lo
  {
    if lo == hi then [] else [r[lo]] + Sub(r, lo + 1, hi)
  }

  lemma {:induction false} SubIsSlice(r: seq<byte>, lo: nat, hi: nat)
    requires lo <= hi <= |r|
    ensures Sub(r, lo, hi) == r[lo..hi]
    decreases hi - lo
  {
    if lo < hi {
      SubIsSlice(r, lo + 1, hi);
      assert r[lo..hi] == [r[lo]] + r[lo + 1..hi];
    }
  }

  /** Within bounds a slice is the subsequence. */
  lemma {:induction false} SliceInBounds(r: seq<byte>, a: int, b: int)
    requires 0 <= a <= b <= |r|
    ensures Slice(r, a, b) == r[a..b]
  {
    SubIsSlice(r, a, b);
  }

  /** `int.from_bytes(s, byteorder="big", signed=False)`. */
  function FromBytes(s: seq<byte>): (v: nat)
    ensures v < Pow256(|s|)
  {
    if |s| == 0 then 0 else FromBytes(s[..|s| - 1]) * 256 + s[|s| - 1]
  }

  /** The big-endian n-byte encoding of v, for v that fits. */
  function Encode(v: nat, n: nat): (s: seq<byte>)
    requires v < Pow256(n)
    ensures |s| == n
  {
    if n == 0 then [] else Encode(v / 256, n - 1) + [v % 256]
  }

  /** `v.to_bytes(n, byteorder='big')`: OverflowError when v is negative or
      needs more than n bytes. */
  function ToBytes(v: int, n: nat): (r: Result<seq<byte>>)
    ensures r.Success? <==> 0 <= v < Pow256(n)
    ensures r.Success? ==> |r.value| == n && FromBytes(r.value) == v
    ensures r.Failure? ==> r.error == OverflowError
  {
    if 0 <= v < Pow256(n) then
      DecodeEncode(v, n);
      Success(Encode(v, n))
    else Failure(OverflowError)
  }

  /** Reading back a big-endian encoding gives the value encoded. */
  lemma {:induction false} DecodeEncode(v: nat, n: nat)
    requires v < Pow256(n)
    ensures FromBytes(Encode(v, n)) == v
  {
    if n > 0 {
      var s := Encode(v, n);
      assert s[..|s| - 1] == Encode(v / 256, n - 1);
      DecodeEncode(v / 256, n - 1);
    }
  }

  /** Encoding the value read from a byte string gives the string back. */
  lemma {:induction false} EncodeDecode(s: seq<byte>)
    ensures Encode(FromBytes(s), |s|) == s
  {
    if |s| > 0 {
      var v := FromBytes(s);
      var init := s[..|s| - 1];
      assert v / 256 == FromBytes(init) && v % 256 == s[|s| - 1];
      EncodeDecode(init);
      assert s == init + [s[|s| - 1]];
    }
  }

  /** `parse_unsigned_int(index, byte_length, response)`: the big-endian value
      of the (clamped) slice starting at index, and the index advanced by
      byte_length whether or not that many bytes were there. */
  function ParseUnsignedInt(index: int, n: nat, r: seq<byte>): (res: (nat, int))
    ensures res.1 == index + n
    ensures res.0 < Pow256(n)
    ensures index >= |r| ==> res.0 == 0
  {
    var s := Slice(r, index, index + n);
    PowMonotone(|s|, n);
    (FromBytes(s), index + n)
  }

  /** n bytes inside the buffer are read as the value they encode. */
  lemma {:induction false} UnsignedIntBytes(index: int, n: nat, r: seq<byte>)
    requires 0 <= index && index + n <= |r|
    ensures Encode(ParseUnsignedInt(index, n, r).0, n) == r[index..index + n]
  {
    SliceInBounds(r, index, index + n);
    EncodeDecode(r[index..index + n]);
  }

  lemma {:induction false} PowMonotone(m: nat, n: nat)
    requires m <= n
    ensures Pow256(m) <= Pow256(n)
  {
    if m < n {
      PowMonotone(m, n - 1);
    }
  }

  /** The two-byte big-endian value of [hi, lo]. */
  lemma {:induction false} Uint16(hi: byte, lo: byte)
    ensures FromBytes([hi, lo]) == hi * 256 + lo
  {
    assert [hi, lo][..1] == [hi];
    assert [hi][..0] == [];
  }
}

=== FILE: hops.dfy ===
/** Why the pointer-hop budget of ParseName is enough: where `parse_name`
    goes next depends only on the buffer and the current index, and a hop
    can only happen at one of the 2·|r| valid subscripts. So a run that
    makes 2·|r| + 1 hops has revisited a pointer and repeats forever; this
    is exactly the run the Python resolver never leaves. */
module Hops {
  import opened Results
  import opened Bytes
  import opened Names

  /** Where the decoder goes next from index i, as opposed to what it
      builds: the kind of step, the hop target and the next label index do
      not depend on the name or the resumption point decoded so far. A hop
      happens only at a valid subscript, and a stop is never a hop-limit
      failure. */
  lemma {:induction false} StepShape(r: seq<byte>, i: int, name: seq<byte>, end: int)
    ensures var s, s0 := NameStep(r, i, name, end), NameStep(r, i, [], 0);
            && (s.Stop? <==> s0.Stop?) && (s.Hop? <==> s0.Hop?)
            && (s.Stop? ==> s.res != Failure(HopLimit))
            && (s.Hop? ==> s.target == s0.target && -|r| <= i < |r|)
            && (s.Append? ==> s.next == s0.next)
  {
  }

  /** The next pointer the decoder meets, if any. */
  datatype Next = Ends | HopsAt(pos: int)

  /** The first pointer met from index i, reading labels only; Ends when
      the decoder stops (at a zero byte or a failing subscript) first. */
  function FirstHop(r: seq<byte>, i: int): (n: Next)
    ensures n.HopsAt? ==> -|r| <= n.pos < |r|
    decreases |r| - i
  {
    match NameStep(r, i, [], 0)
    case Stop(_) => Ends
    case Hop(_, _) => HopsAt(i)
    case Append(next, _) => FirstHop(r, next)
  }

  /** The pointer met after following the pointer at p. */
  function Jump(r: seq<byte>, p: int): (n: Next)
    ensures n.HopsAt? ==> -|r| <= n.pos < |r|
  {
    match NameStep(r, p, [], 0)
    case Hop(t, _) => FirstHop(r, t)
    case _ => Ends
  }

  /** The pointer met after n more hops from h, where `jump` gives the
      pointer met after each one. */
  function Iter(jump: int -> Next, h: Next, n: nat): Next
    decreases n
  {
    match h
    case Ends => Ends
    case HopsAt(p) => if n == 0 then h else Iter(jump, jump(p), n - 1)
  }

  /** Jump, as the step function of Iter. */
  function Jumps(r: seq<byte>): int -> Next
  {
    p => Jump(r, p)
  }

  /** The decoder runs out of a budget of f hops exactly when f + 1
      pointers are met along its way. */
  lemma {:induction false} LoopIter(r: seq<byte>, i: int, name: seq<byte>, end: int, f: nat)
    ensures NameLoop(r, i, name, end, f) == Failure(HopLimit) <==> Iter(Jumps(r), FirstHop(r, i), f).HopsAt?
    decreases f, |r| - i
  {
    match NameStep(r, i, name, end)
    case Stop(v) =>
      LoopStop(r, i, name, end, f, v);
    case Hop(t, e) =>
      if f == 0 {
        LoopHopLimit(r, i, name, end, f, t, e);
      } else {
        var g: nat := f - 1;
        LoopHop(r, i, name, end, f, g, t, e);
        LoopIter(r, t, name, e, g);
      }
    case Append(next, n) =>
      LoopAppend(r, i, name, end, f, next, n);
      LoopIter(r, next, n, end, f);
  }

  /** A stop ends both the decode and the pointers met, without a hop-limit
      failure. */
  lemma {:induction false} LoopStop(r: seq<byte>, i: int, name: seq<byte>, end: int, f: nat, v: Result<(seq<byte>, int)>)
    requires NameStep(r, i, name, end) == Stop(v)
    ensures NameLoop(r, i, name, end, f) != Failure(HopLimit)
    ensures !Iter(Jumps(r), FirstHop(r, i), f).HopsAt?
  {
    StepShape(r, i, name, end);
    UnfoldStop(r, i, name, end, f, v);
  }

  /** A hop with no budget left is the hop-limit failure, and it is a
      pointer met. */
  lemma {:induction false} LoopHopLimit(r: seq<byte>, i: int, name: seq<byte>, end: int, f: nat, t: int, e: int)
    requires NameStep(r, i, name, end) == Hop(t, e) && f == 0
    ensures NameLoop(r, i, name, end, f) == Failure(HopLimit) && Iter(Jumps(r), FirstHop(r, i), f).HopsAt?
  {
    StepShape(r, i, name, end);
    UnfoldHop(r, i, name, end, f, t, e);
  }

  /** A hop is the first pointer met; with g hops of budget left after it,
      the decode and the pointers met both continue from its target. */
  lemma {:induction false} LoopHop(r: seq<byte>, i: int, name: seq<byte>, end: int, f: nat, g: nat, t: int, e: int)
    requires NameStep(r, i, name, end) == Hop(t, e) && f == g + 1
    ensures NameLoop(r, i, name, end, f) == NameLoop(r, t, name, e, g)
    ensures Iter(Jumps(r), FirstHop(r, i), f) == Iter(Jumps(r), FirstHop(r, t), g)
  {
    StepShape(r, i, name, end);
    UnfoldHop(r, i, name, end, f, t, e);
  }

  /** A label moves the decode and the search for the first pointer on to
      the same index. */
  lemma {:induction false} LoopAppend(r: seq<byte>, i: int, name: seq<byte>, end: int, f: nat, next: int, n: seq<byte>)
    requires NameStep(r, i, name, end) == Append(next, n)
    ensures NameLoop(r, i, name, end, f) == NameLoop(r, next, n, end, f)
    ensures FirstHop(r, i) == FirstHop(r, next)
  {
    StepShape(r, i, name, end);
    UnfoldAppend(r, i, name, end, f, next, n);
  }

  /** One more hop follows the last pointer met. */
  lemma {:induction false} IterNext(jump: int -> Next, h: Next, k: nat)
    ensures Iter(jump, h, k + 1) == if Iter(jump, h, k).HopsAt? then jump(Iter(jump, h, k).pos) else Ends
    decreases k
  {
    if h.HopsAt? && k > 0 {
      IterNext(jump, jump(h.pos), k - 1);
    }
  }

  /** A run that meets pointer k met every earlier one. */
  lemma {:induction false} IterDown(jump: int -> Next, h: Next, j: nat, k: nat)
    requires j <= k && Iter(jump, h, k).HopsAt?
    ensures Iter(jump, h, j).HopsAt?
    decreases k
  {
    if j < k {
      IterNext(jump, h, k - 1);
      IterDown(jump, h, j, k - 1);
    }
  }

  /** Meeting the same pointer twice, the run repeats from there on. */
  lemma {:induction false} IterShift(jump: int -> Next, h: Next, a: nat, b: nat, m: nat)
    requires Iter(jump, h, a) == Iter(jump, h, b)
    ensures Iter(jump, h, a + m) == Iter(jump, h, b + m)
    decreases m
  {
    if m > 0 {
      IterShift(jump, h, a, b, m - 1);
      IterNext(jump, h, a + m - 1);
      IterNext(jump, h, b + m - 1);
    }
  }

  /** A repeated pointer is met again and again: every count of hops is
      reached. */
  lemma {:induction false} IterForever(jump: int -> Next, h: Next, a: nat, b: nat, n: nat)
    requires a < b && Iter(jump, h, a) == Iter(jump, h, b) && Iter(jump, h, b).HopsAt?
    ensures Iter(jump, h, n).HopsAt?
    decreases n
  {
    if n <= b {
      IterDown(jump, h, n, b);
    } else {
      IterShift(jump, h, a, b, n - b);
      IterForever(jump, h, a, b, a + n - b);
    }
  }

  /** Every pointer met lies in lo..hi-1 when the first one and every
      jump's do. */
  lemma {:induction false} IterInRange(jump: int -> Next, h: Next, lo: int, hi: int, k: nat)
    requires h.HopsAt? ==> lo <= h.pos < hi
    requires forall p :: jump(p).HopsAt? ==> lo <= jump(p).pos < hi
    ensures Iter(jump, h, k).HopsAt? ==> lo <= Iter(jump, h, k).pos < hi
    decreases k
  {
    if h.HopsAt? && k > 0 {
      IterInRange(jump, jump(h.pos), lo, hi, k - 1);
    }
  }

  /** The set of the integers lo..hi-1. */
  function Range(lo: int, hi: int): (s: set<int>)
    ensures forall p :: p in s <==> lo <= p < hi
    ensures lo <= hi ==> |s| == hi - lo
    decreases hi - lo
  {
    if lo >= hi then {} else Range(lo, hi - 1) + {hi - 1}
  }

  /** More items than places: two items share a place. */
  lemma {:induction false} Pigeonhole(s: seq<int>, places: set<int>)
    requires forall k :: 0 <= k < |s| ==> s[k] in places
    requires |s| > |places|
    ensures exists a, b :: 0 <= a < b < |s| && s[a] == s[b]
    decreases |s|
  {
    var x := s[|s| - 1];
    if exists a :: 0 <= a < |s| - 1 && s[a] == x {
    } else {
      var t := s[..|s| - 1];
      forall k | 0 <= k < |t| ensures t[k] in places - {x} {
        assert t[k] == s[k];
      }
      Pigeonhole(t, places - {x});
      var a, b :| 0 <= a < b < |t| && t[a] == t[b];
      assert s[a] == t[a] && s[b] == t[b];
    }
  }

  /** Among hi - lo + 1 pointers met, all in lo..hi-1, two are the same. */
  lemma {:induction false} HopsRepeat(jump: int -> Next, h: Next, lo: int, hi: int)
    requires lo <= hi
    requires h.HopsAt? ==> lo <= h.pos < hi
    requires forall p :: jump(p).HopsAt? ==> lo <= jump(p).pos < hi
    requires Iter(jump, h, hi - lo).HopsAt?
    ensures exists a: nat, b: nat :: a < b <= hi - lo && Iter(jump, h, a) == Iter(jump, h, b)
  {
    var n := hi - lo;
    var s := seq(n + 1, k => if 0 <= k && Iter(jump, h, k).HopsAt? then Iter(jump, h, k).pos else 0);
    var places := Range(lo, hi);
    forall k | 0 <= k < |s| ensures s[k] in places && Iter(jump, h, k) == HopsAt(s[k]) {
      IterDown(jump, h, k, n);
      IterInRange(jump, h, lo, hi, k);
    }
    Pigeonhole(s, places);
    var a, b :| 0 <= a < b < |s| && s[a] == s[b];
    assert Iter(jump, h, a) == HopsAt(s[a]) && Iter(jump, h, b) == HopsAt(s[b]);
  }

  /** The budget ParseName gives is enough: a decode that runs out of its
      2·|r| hops runs out of every budget, that is, the Python resolver's loop never
      ends on it. */
  lemma {:induction false} HopBoundSuffices(r: seq<byte>, i: int, name: seq<byte>, end: int, f: nat)
    requires NameLoop(r, i, name, end, HopBound(r)) == Failure(HopLimit)
    ensures NameLoop(r, i, name, end, f) == Failure(HopLimit)
  {
    var jump := Jumps(r);
    var h := FirstHop(r, i);
    LoopIter(r, i, name, end, HopBound(r));
    LoopIter(r, i, name, end, f);
    HopsRepeat(jump, h, -|r|, |r|);
    var a: nat, b: nat :| a < b <= HopBound(r) && Iter(jump, h, a) == Iter(jump, h, b);
    IterDown(jump, h, b, HopBound(r));
    IterForever(jump, h, a, b, f);
  }

  /** ParseName fails with HopLimit exactly when every hop budget runs
      out, that is, exactly where the Python resolver's loop never ends. */
  lemma {:induction false} HopLimitMeansEndless(index: int, r: seq<byte>)
    ensures ParseName(index, r) == Failure(HopLimit)
            <==> forall f: nat :: NameLoop(r, index, [], 0, f) == Failure(HopLimit)
  {
    if ParseName(index, r) == Failure(HopLimit) {
      forall f: nat ensures NameLoop(r, index, [], 0, f) == Failure(HopLimit) {
        HopBoundSuffices(r, index, [], 0, f);
      }
    } else {
      assert NameLoop(r, index, [], 0, HopBound(r)) == ParseName(index, r);
    }
  }
}

=== FILE: labels.dfy ===
/** Dotted names as sequences of labels: Python's `str.split('.')`, the
    `'.'`-joining the decoder performs, and the uncompressed wire form of a
    label sequence (a length byte before each label, a zero byte after the
    last one, as in section 3.1 of RFC 1035). */
module Labels {
  import opened Bytes

  /** The byte the decoder writes between labels: ASCII '.'. */
  const Dot: byte := 46

  /** `s.split(sep)`: never empty, keeps empty pieces (so "a..b" has an
      empty middle label and "" splits into one empty label). */
  function Split<T(==)>(s: seq<T>, sep: T): (parts: seq<seq<T>>)
    ensures |parts| >= 1
    ensures forall k :: 0 <= k < |parts| ==> sep !in parts[k]
    decreases |s|
  {
    if |s| == 0 then [[]]
    else
      var rest := Split(s[1..], sep);
      if s[0] == sep then [[]] + rest
      else [[s[0]] + rest[0]] + rest[1..]
  }

  /** `sep.join(parts)`: the separator between consecutive parts only. */
  function Join<T>(parts: seq<seq<T>>, sep: T): seq<T>
  {
    if |parts| == 0 then []
    else if |parts| == 1 then parts[0]
    else parts[0] + [sep] + Join(parts[1..], sep)
  }

  /** Splitting and joining again gives back the original string. */
  lemma {:induction false} JoinSplit<T>(s: seq<T>, sep: T)
    ensures Join(Split(s, sep), sep) == s
    decreases |s|
  {
    if |s| > 0 {
      var rest := Split(s[1..], sep);
      JoinSplit(s[1..], sep);
      if s[0] == sep {
        assert ([[]] + rest)[1..] == rest;
      } else if |rest| == 1 {
      } else {
        assert ([[s[0]] + rest[0]] + rest[1..])[1..] == rest[1..];
        assert Join(rest, sep) == rest[0] + [sep] + Join(rest[1..], sep);
      }
    }
  }

  /** A separator-free prefix merges into the first piece. */
  lemma {:induction false} SplitPrefix<T>(a: seq<T>, t: seq<T>, sep: T)
    requires sep !in a
    ensures Split(a + t, sep) == [a + Split(t, sep)[0]] + Split(t, sep)[1..]
    decreases |a|
  {
    if |a| > 0 {
      assert (a + t)[1..] == a[1..] + t;
      SplitPrefix(a[1..], t, sep);
      assert [a[0]] + (a[1..] + Split(t, sep)[0]) == a + Split(t, sep)[0];
    } else {
      var parts := Split(t, sep);
      assert a == [];
      assert a + t == t && a + parts[0] == parts[0];
      assert parts == [parts[0]] + parts[1..];
    }
  }

  /** Joining separator-free parts and splitting again gives back the parts. */
  lemma {:induction false} SplitJoin<T>(parts: seq<seq<T>>, sep: T)
    requires |parts| >= 1
    requires forall k :: 0 <= k < |parts| ==> sep !in parts[k]
    ensures Split(Join(parts, sep), sep) == parts
  {
    if |parts| == 1 {
      SplitPrefix(parts[0], [], sep);
      assert parts[0] + [] == parts[0];
    } else {
      var tail := Join(parts[1..], sep);
      SplitJoin(parts[1..], sep);
      SplitPrefix(parts[0], [sep] + tail, sep);
      assert ([sep] + tail)[1..] == tail;
      var x := Split([sep] + tail, sep);
      assert x == [[]] + parts[1..];
      assert x[0] == [] && x[1..] == parts[1..];
      assert parts[0] + [sep] + tail == parts[0] + ([sep] + tail);
      assert Join(parts, sep) == parts[0] + [sep] + tail;
      assert parts[0] + x[0] == parts[0];
      assert parts == [parts[0]] + parts[1..];
    }
  }

  /** A label that `parse_name` reads back as a label: 1 to 191 bytes, as
      any non-zero length byte below 0xC0 starts a label. Section 2.3.4 of
      RFC 1035 allows only 63; mydns.py does not check that limit. */
  predicate ValidLabel(l: seq<byte>)
  {
    1 <= |l| < 0xC0
  }

  predicate ValidLabels(ls: seq<seq<byte>>)
  {
    forall k :: 0 <= k < |ls| ==> ValidLabel(ls[k])
  }

  /** Each label preceded by its length byte, no terminator. */
  function LabelRun(ls: seq<seq<byte>>): seq<byte>
    requires ValidLabels(ls)
  {
    if |ls| == 0 then [] else [|ls[0]| as byte] + ls[0] + LabelRun(ls[1..])
  }

  /** The uncompressed wire form of a name. */
  function EncodeLabels(ls: seq<seq<byte>>): (e: seq<byte>)
    requires ValidLabels(ls)
    ensures |e| == |LabelRun(ls)| + 1 && e[|e| - 1] == 0
  {
    LabelRun(ls) + [0]
  }

  /** Σ (1 + |label|): the bytes a label run occupies. */
  function RunSize<T>(ls: seq<seq<T>>): nat
  {
    if |ls| == 0 then 0 else 1 + |ls[0]| + RunSize(ls[1..])
  }

  lemma {:induction false} LabelRunSize(ls: seq<seq<byte>>)
    requires ValidLabels(ls)
    ensures |LabelRun(ls)| == RunSize(ls)
  {
    if |ls| > 0 {
      LabelRunSize(ls[1..]);
    }
  }

  /** The label run of ls sits in r at offset i, spelled out label by label. */
  predicate RunAt(r: seq<byte>, i: int, ls: seq<seq<byte>>)
    decreases |ls|
  {
    |ls| == 0 ||
    (0 <= i && i + 1 + |ls[0]| <= |r| && r[i] == |ls[0]| && r[i + 1..i + 1 + |ls[0]|] == ls[0]
     && RunAt(r, i + 1 + |ls[0]|, ls[1..]))
  }

  /** Wherever the encoded run occurs, it can be read label by label. */
  lemma {:induction false} OccursRunAt(r: seq<byte>, i: int, ls: seq<seq<byte>>)
    requires ValidLabels(ls) && Occurs(r, i, LabelRun(ls))
    ensures RunAt(r, i, ls) && |LabelRun(ls)| == RunSize(ls)
    decreases |ls|
  {
    LabelRunSize(ls);
    if |ls| > 0 {
      var l := ls[0];
      assert LabelRun(ls) == [|l| as byte] + l + LabelRun(ls[1..]);
      OccursSplit(r, i, [|l| as byte] + l, LabelRun(ls[1..]));
      OccursSplit(r, i, [|l| as byte], l);
      OccursAsSlice(r, i, [|l| as byte]);
      OccursAsSlice(r, i + 1, l);
      OccursRunAt(r, i + 1 + |l|, ls[1..]);
    }
  }

  /** An uncompressed name with labels ls sits in r at offset i. */
  predicate NameAt(r: seq<byte>, i: int, ls: seq<seq<byte>>)
  {
    ValidLabels(ls) && 0 <= i && RunAt(r, i, ls)
    && i + RunSize(ls) < |r| && r[i + RunSize(ls)] == 0
  }

  lemma {:induction false} OccursNameAt(r: seq<byte>, i: int, ls: seq<seq<byte>>)
    requires ValidLabels(ls) && Occurs(r, i, EncodeLabels(ls))
    ensures NameAt(r, i, ls) && |EncodeLabels(ls)| == RunSize(ls) + 1
  {
    OccursSplit(r, i, LabelRun(ls), [0]);
    OccursRunAt(r, i, ls);
  }

  /** `e` sits in `r` at offset i. */
  predicate Occurs(r: seq<byte>, i: int, e: seq<byte>)
  {
    0 <= i && i + |e| <= |r| && forall k :: 0 <= k < |e| ==> r[i + k] == e[k]
  }

  /** Occurs is equality with the slice of r at i. */
  lemma {:induction false} OccursAsSlice(r: seq<byte>, i: int, e: seq<byte>)
    ensures Occurs(r, i, e) <==> 0 <= i && i + |e| <= |r| && r[i..i + |e|] == e
  {
    if 0 <= i && i + |e| <= |r| {
      var s := r[i..i + |e|];
      assert forall k | 0 <= k < |e| :: s[k] == r[i + k];
    }
  }

  lemma {:induction false} OccursSplit(r: seq<byte>, i: int, a: seq<byte>, b: seq<byte>)
    requires Occurs(r, i, a + b)
    ensures Occurs(r, i, a) && Occurs(r, i + |a|, b)
  {
    OccursAsSlice(r, i, a + b);
    OccursAsSlice(r, i, a);
    OccursAsSlice(r, i + |a|, b);
    assert r[i..i + |a|] == (r[i..i + |a + b|])[..|a|];
    assert r[i + |a|..i + |a| + |b|] == (r[i..i + |a + b|])[|a|..];
  }
}

=== FILE: message.dfy ===
/** `parse_resource` and `parse_response`: decoding the header, the
    question section and the three resource-record sections of a response
    (section 4.1 of RFC 1035) the way the Python resolver does, including its
    shortcuts. */
module Message {
  import opened Results
  import opened Bytes
  import opened Names

  /** One entry of the question section: (name, qtype, qclass). */
  datatype Question = Question(name: seq<byte>, qtype: nat, qclass: nat)

  /** RDATA as the Python resolver keeps it: the decoded host name for an NS record
      (TYPE 2), the raw bytes for every other type. */
  datatype RData = HostName(host: seq<byte>) | Raw(bytes: seq<byte>)

  /** The Python resolver's record tuple (name, rtype, rclass, ttl, rdata, index);
      `next` is the offset just past the record's RDATA. */
  datatype Record = Record(name: seq<byte>, rtype: nat, rclass: nat, ttl: nat, data: RData, next: int)

  /** The dictionary `parse_response` returns (the counts are not kept). */
  datatype Response = Response(id: nat, questions: seq<Question>, answers: seq<Record>,
                               authorities: seq<Record>, additionals: seq<Record>)

  /** TYPE values the resolver looks at. */
  const TypeA: nat := 1
  const TypeNS: nat := 2

  /** The big-endian value of the (clamped) n bytes at i, as
      `parse_unsigned_int` reads it. */
  function Field(r: seq<byte>, i: int, n: nat): nat
  {
    ParseUnsignedInt(i, n, r).0
  }

  /** Where the fixed part (TYPE, CLASS, TTL, RDLENGTH) of a record whose
      owner name starts at `index` begins. When `skipOwner` holds the owner
      is assumed to be a two-byte pointer and the decoded name's own
      resumption point is ignored. */
  function OwnerEnd(index: int, r: seq<byte>, skipOwner: bool): (res: Result<(seq<byte>, int)>)
    ensures res.Success? <==> ParseName(index, r).Success?
    ensures res.Success? ==> res.value.0 == ParseName(index, r).value.0
    ensures res.Success? && skipOwner ==> res.value.1 == index + 2
    ensures res.Success? && !skipOwner ==> res.value.1 == ParseName(index, r).value.1
  {
    var (name, end) :- ParseName(index, r);
    if skipOwner then Success((name, index + 2)) else Success((name, end))
  }

  /** One iteration of `parse_resource`'s loop. `skipOwner` is the Python resolver's
      `ind_name` flag. */
  function ParseRecord(index: int, r: seq<byte>, skipOwner: bool): (res: Result<Record>)
    ensures res.Success? ==>
              var o := OwnerEnd(index, r, skipOwner);
              o.Success? && res.value.name == o.value.0 && FieldsAt(res.value, r, o.value.1)
    ensures OwnerEnd(index, r, skipOwner).Failure? ==> res.Failure?
  {
    var (name, start) :- OwnerEnd(index, r, skipOwner);
    RecordFields(name, start, r)
  }

  /** The record read at `start` carries the TYPE, CLASS and TTL stored
      there, its RDATA ends RDLENGTH bytes after the fixed part, and its
      RDATA is a host name exactly when its TYPE is NS. */
  predicate FieldsAt(rd: Record, r: seq<byte>, start: int)
  {
    && rd.rtype == Field(r, start, 2) && rd.rclass == Field(r, start + 2, 2)
    && rd.ttl == Field(r, start + 4, 4)
    && rd.next == start + 10 + Field(r, start + 8, 2)
    && (rd.data.HostName? <==> rd.rtype == TypeNS)
  }

  /** The fixed part (TYPE, CLASS, TTL, RDLENGTH) and the RDATA of a record
      whose owner name has been read. Only an NS record's host name can
      fail to decode. */
  function RecordFields(name: seq<byte>, start: int, r: seq<byte>): (res: Result<Record>)
    ensures res.Success? <==> Field(r, start, 2) != TypeNS || ParseName(start + 10, r).Success?
    ensures res.Success? ==> res.value.name == name && FieldsAt(res.value, r, start)
  {
    var (rtype, i1) := ParseUnsignedInt(start, 2, r);
    var (rclass, i2) := ParseUnsignedInt(i1, 2, r);
    var (ttl, i3) := ParseUnsignedInt(i2, 4, r);
    var (rlength, rdataStart) := ParseUnsignedInt(i3, 2, r);
    var next := rdataStart + rlength;
    var data :- RecordData(rtype, rdataStart, next, r);
    Success(Record(name, rtype, rclass, ttl, data, next))
  }

  /** The record's RDATA: for an NS record the host name decoded from its
      start (the RDLENGTH is not consulted), otherwise the bytes up to
      `next`. */
  function RecordData(rtype: nat, start: int, next: int, r: seq<byte>): (res: Result<RData>)
    ensures res.Success? <==> rtype != TypeNS || ParseName(start, r).Success?
    ensures res.Success? ==> (res.value.HostName? <==> rtype == TypeNS)
  {
    if rtype == TypeNS then
      var (host, _) :- ParseName(start, r);
      Success(HostName(host))
    else
      Success(Raw(Slice(r, start, next)))
  }

  /** A record's RDATA: an NS record carries the name decoded where its
      RDATA starts, every other record exactly the bytes from there up to
      its end (a slice clamped to the buffer). */
  lemma {:induction false} RecordPayload(index: int, r: seq<byte>, skipOwner: bool)
    requires ParseRecord(index, r, skipOwner).Success?
    ensures var rd := ParseRecord(index, r, skipOwner).value;
            var start := OwnerEnd(index, r, skipOwner).value.1 + 10;
            && (rd.rtype == TypeNS ==> ParseName(start, r).Success? && rd.data == HostName(ParseName(start, r).value.0))
            && (rd.rtype != TypeNS ==> rd.data == Raw(Slice(r, start, rd.next)))
  {
  }

  /** `parse_resource(count, index, response, ind_name)`: `count` records
      read back to back; the resulting index is the end of the last one. */
  function ParseRecords(count: nat, index: int, r: seq<byte>, skipOwner: bool)
    : (res: Result<(seq<Record>, int)>)
    ensures res.Success? ==> |res.value.0| == count
    ensures count == 0 ==> res == Success(([], index))
    decreases count
  {
    if count == 0 then Success(([], index))
    else
      var rec :- ParseRecord(index, r, skipOwner);
      var (rest, end) :- ParseRecords(count - 1, rec.next, r, skipOwner);
      Success(([rec] + rest, end))
  }

  /** The records recs sit back to back from `index` on, each starting where
      the previous one's RDATA ended, and the last one ends at `end`. */
  predicate Chained(index: int, recs: seq<Record>, r: seq<byte>, skipOwner: bool, end: int)
    decreases |recs|
  {
    if |recs| == 0 then end == index
    else ParseRecord(index, r, skipOwner) == Success(recs[0])
         && Chained(recs[0].next, recs[1..], r, skipOwner, end)
  }

  /** parse_resource reads exactly the chained record sequences of length
      `count`. */
  lemma {:induction false} ParseRecordsChained(count: nat, index: int, r: seq<byte>, skipOwner: bool,
                                               recs: seq<Record>, end: int)
    ensures ParseRecords(count, index, r, skipOwner) == Success((recs, end))
            <==> |recs| == count && Chained(index, recs, r, skipOwner, end)
    decreases count
  {
    if count > 0 && |recs| > 0 {
      var x, xs := recs[0], recs[1..];
      HeadTail(recs);
      ChainedCons(index, x, xs, r, skipOwner, end);
      match ParseRecord(index, r, skipOwner)
      case Failure(e) =>
        RecordsFail(count, index, r, skipOwner, e);
      case Success(rec) =>
        RecordsCons(count, index, r, skipOwner, rec);
        ParseRecordsChained(count - 1, rec.next, r, skipOwner, xs, end);
        var rest := ParseRecords(count - 1, rec.next, r, skipOwner);
        if rest.Success? {
          ConsInjective(rec, rest.value.0, x, xs);
        }
    }
  }

  /** The first record of a chain parses at its start, the rest chain on. */
  lemma {:induction false} ChainedCons(index: int, x: Record, xs: seq<Record>, r: seq<byte>, skipOwner: bool, end: int)
    ensures Chained(index, [x] + xs, r, skipOwner, end)
            <==> ParseRecord(index, r, skipOwner) == Success(x) && Chained(x.next, xs, r, skipOwner, end)
  {
    ConsParts(x, xs);
  }

  lemma {:induction false} ConsParts<T>(x: T, xs: seq<T>)
    ensures ([x] + xs)[0] == x && ([x] + xs)[1..] == xs && |[x] + xs| == |xs| + 1
  {
  }

  lemma {:induction false} ConsInjective<T>(a: T, s: seq<T>, b: T, t: seq<T>)
    ensures [a] + s == [b] + t <==> a == b && s == t
  {
    if [a] + s == [b] + t {
      ConsParts(a, s);
      ConsParts(b, t);
    }
  }

  lemma {:induction false} RecordsFail(count: nat, index: int, r: seq<byte>, skipOwner: bool, e: Error)
    requires count > 0 && ParseRecord(index, r, skipOwner) == Failure(e)
    ensures ParseRecords(count, index, r, skipOwner) == Failure(e)
  {
  }

  lemma {:induction false} RecordsCons(count: nat, index: int, r: seq<byte>, skipOwner: bool, rec: Record)
    requires count > 0 && ParseRecord(index, r, skipOwner) == Success(rec)
    ensures var rest := ParseRecords(count - 1, rec.next, r, skipOwner);
            ParseRecords(count, index, r, skipOwner)
            == if rest.Success? then Success(([rec] + rest.value.0, rest.value.1)) else Failure(rest.error)
  {
  }

  lemma {:induction false} HeadTail<T>(s: seq<T>)
    requires |s| > 0
    ensures s == [s[0]] + s[1..]
  {
  }

  /** One iteration of the question loop: name, QTYPE, QCLASS. */
  function ParseQuestion(index: int, r: seq<byte>): (res: Result<(Question, int)>)
    ensures res.Success? <==> ParseName(index, r).Success?
    ensures res.Success? ==>
              && res.value.0.name == ParseName(index, r).value.0
              && res.value.1 == ParseName(index, r).value.1 + 4
              && res.value.0.qtype == Field(r, ParseName(index, r).value.1, 2)
              && res.value.0.qclass == Field(r, ParseName(index, r).value.1 + 2, 2)
              && res.value.0.qtype < 0x10000 && res.value.0.qclass < 0x10000
  {
    var (name, i) :- ParseName(index, r);
    var (qtype, j) := ParseUnsignedInt(i, 2, r);
    var (qclass, k) := ParseUnsignedInt(j, 2, r);
    Success((Question(name, qtype, qclass), k))
  }

  /** The question loop of `parse_response`. */
  function ParseQuestions(count: nat, index: int, r: seq<byte>): (res: Result<(seq<Question>, int)>)
    ensures res.Success? ==> |res.value.0| == count
    ensures count == 0 ==> res == Success(([], index))
    decreases count
  {
    if count == 0 then Success(([], index))
    else
      var (q, next) :- ParseQuestion(index, r);
      var (rest, end) :- ParseQuestions(count - 1, next, r);
      Success(([q] + rest, end))
  }

  /** The questions qs sit back to back from `index` on and the last one
      ends at `end`. */
  predicate QuestionsAt(index: int, qs: seq<Question>, r: seq<byte>, end: int)
    decreases |qs|
  {
    if |qs| == 0 then end == index
    else ParseQuestion(index, r).Success? && ParseQuestion(index, r).value.0 == qs[0]
         && QuestionsAt(ParseQuestion(index, r).value.1, qs[1..], r, end)
  }

  /** The question loop reads exactly the back-to-back question sequences
      of length `count`. */
  lemma {:induction false} ParseQuestionsAt(count: nat, index: int, r: seq<byte>, qs: seq<Question>, end: int)
    ensures ParseQuestions(count, index, r) == Success((qs, end))
            <==> |qs| == count && QuestionsAt(index, qs, r, end)
    decreases count
  {
    if count > 0 && |qs| > 0 {
      var x, xs := qs[0], qs[1..];
      HeadTail(qs);
      QuestionsAtCons(index, x, xs, r, end);
      match ParseQuestion(index, r)
      case Failure(e) =>
        QuestionsFail(count, index, r, e);
      case Success((q, next)) =>
        QuestionsCons(count, index, r, q, next);
        ParseQuestionsAt(count - 1, next, r, xs, end);
        var rest := ParseQuestions(count - 1, next, r);
        if rest.Success? {
          ConsInjective(q, rest.value.0, x, xs);
        }
    }
  }

  lemma {:induction false} QuestionsAtCons(index: int, x: Question, xs: seq<Question>, r: seq<byte>, end: int)
    ensures QuestionsAt(index, [x] + xs, r, end)
            <==> ParseQuestion(index, r).Success? && ParseQuestion(index, r).value.0 == x
                 && QuestionsAt(ParseQuestion(index, r).value.1, xs, r, end)
  {
    ConsParts(x, xs);
  }

  lemma {:induction false} QuestionsFail(count: nat, index: int, r: seq<byte>, e: Error)
    requires count > 0 && ParseQuestion(index, r) == Failure(e)
    ensures ParseQuestions(count, index, r) == Failure(e)
  {
  }

  lemma {:induction false} QuestionsCons(count: nat, index: int, r: seq<byte>, q: Question, next: int)
    requires count > 0 && ParseQuestion(index, r) == Success((q, next))
    ensures var rest := ParseQuestions(count - 1, next, r);
            ParseQuestions(count, index, r)
            == if rest.Success? then Success(([q] + rest.value.0, rest.value.1)) else Failure(rest.error)
  {
  }

  /** `parse_response(response)`. The header is read with
      `parse_unsigned_int`, which never fails (missing bytes read as
      nothing), so only a name that runs off the buffer makes it fail. The
      flags are skipped, answers and additionals are read with the owner
      skip, authorities without. */
  function ParseResponse(r: seq<byte>): (res: Result<Response>)
    ensures |r| == 0 ==> res == Success(Response(0, [], [], [], []))
    ensures res.Success? ==>
              && res.value.id == Field(r, 0, 2)
              && |res.value.questions| == Field(r, 4, 2)
              && |res.value.answers| == Field(r, 6, 2)
              && |res.value.authorities| == Field(r, 8, 2)
              && |res.value.additionals| == Field(r, 10, 2)
  {
    var (id, i0) := ParseUnsignedInt(0, 2, r);
    var i1 := i0 + 2;
    var (qd, i2) := ParseUnsignedInt(i1, 2, r);
    var (an, i3) := ParseUnsignedInt(i2, 2, r);
    var (ns, i4) := ParseUnsignedInt(i3, 2, r);
    var (ar, i5) := ParseUnsignedInt(i4, 2, r);
    var (questions, j0) :- ParseQuestions(qd, i5, r);
    var (answers, j1) :- ParseRecords(an, j0, r, true);
    var (authorities, j2) :- ParseRecords(ns, j1, r, false);
    var (additionals, _) :- ParseRecords(ar, j2, r, true);
    Success(Response(id, questions, answers, authorities, additionals))
  }
}

=== FILE: names.dfy ===
/** `parse_name`: decoding a possibly compressed domain name (section 4.1.4
    of RFC 1035) from an arbitrary offset of a response buffer. */
module Names {
  import opened Results
  import opened Bytes
  import opened Labels

  /** Pointer-hop budget given to ParseName. The Python resolver has none: a pointer
      chain that revisits an offset makes it loop forever. */
  function HopBound(r: seq<byte>): nat
  {
    2 * |r|
  }

  /** What one run of the Python resolver's `while loop:` body does. */
  datatype Step =
    | Stop(res: Result<(seq<byte>, int)>)   // zero byte reached, or a subscript failed
    | Hop(target: int, end: int)            // compression pointer: jump, new resumption point
    | Append(next: int, name: seq<byte>)    // a label (and maybe a '.') appended

  /** One run of the loop body at `index`, with the loop variables `name`
      and `end`:
      - zero byte: stop; `end` becomes index + 1 only if it is still 0;
      - byte >= 0xC0: `end` becomes index + 2 (on EVERY hop) and decoding
        continues at the two bytes' big-endian value minus 0xC000;
      - any other byte: a label of that length; a '.' is appended when the
        byte after the label is not zero (reading that byte can fail). */
  function NameStep(r: seq<byte>, index: int, name: seq<byte>, end: int): (s: Step)
    ensures s.Append? ==> index < s.next < |r|
    ensures s.Stop? && s.res.Failure? ==> s.res.error.IndexError?
  {
    match At(r, index)
    case Failure(e) => Stop(Failure(e))
    case Success(b) =>
      if b == 0 then Stop(Success((name, if end == 0 then index + 1 else end)))
      else if b >= 0xC0 then Hop(FromBytes(Slice(r, index, index + 2)) - 0xC000, index + 2)
      else
        var next := index + 1 + b;
        match At(r, next)
        case Failure(e) => Stop(Failure(e))
        case Success(peek) => Append(next, name + Slice(r, index + 1, next) + Sep(peek))
  }

  /** The Python resolver's loop, with `fuel` pointer hops still allowed. The only
      way it can fail, besides running out of hops, is a subscript out of
      range. */
  function NameLoop(r: seq<byte>, index: int, name: seq<byte>, end: int, fuel: nat)
    : (res: Result<(seq<byte>, int)>)
    ensures res.Failure? ==> res.error.IndexError? || res.error == HopLimit
    decreases fuel, |r| - index
  {
    match NameStep(r, index, name, end)
    case Stop(res) => res
    case Hop(target, e) =>
      if fuel == 0 then Failure(HopLimit) else NameLoop(r, target, name, e, fuel - 1)
    case Append(next, n) => NameLoop(r, next, n, end, fuel)
  }

  /** What the decoder appends after a label, given the byte that follows
      it: a '.' unless that byte ends the name. */
  function Sep(next: byte): seq<byte>
  {
    if next != 0 then [Dot] else []
  }

  /** `parse_name(index, response)`: the decoded name (labels joined by '.')
      and the offset the caller resumes at. */
  function ParseName(index: int, r: seq<byte>): (res: Result<(seq<byte>, int)>)
    ensures res.Success? ==> -|r| <= index < |r|
    ensures index >= |r| ==> res == Failure(IndexError(index))
  {
    NameLoop(r, index, [], 0, HopBound(r))
  }

  /** The 14-bit target of the compression pointer at p. */
  function PointerTarget(r: seq<byte>, p: int): nat
    requires 0 <= p && p + 1 < |r| && r[p] >= 0xC0
  {
    (r[p] as int - 0xC0) * 256 + r[p + 1] as int
  }

  /** The two-byte compression pointer to offset t. */
  function PointerTo(t: nat): (p: seq<byte>)
    requires t < 0x4000
    ensures |p| == 2 && p[0] >= 0xC0 && PointerTarget(p, 0) == t
  {
    [0xC0 + t / 256, t % 256]
  }

  /** The Python resolver's `from_bytes(...) - 0xC000` on a pointer is its 14-bit target. */
  lemma {:induction false} PointerArithmetic(r: seq<byte>, p: int)
    requires 0 <= p && p + 1 < |r| && r[p] >= 0xC0
    ensures FromBytes(Slice(r, p, p + 2)) - 0xC000 == PointerTarget(r, p)
  {
    SliceInBounds(r, p, p + 2);
    assert Slice(r, p, p + 2) == [r[p], r[p + 1]];
    Uint16(r[p], r[p + 1]);
  }

  /** A pointer at p hops to its 14-bit target and makes the resumption
      point p + 2, whatever it was before. */
  lemma {:induction false} PointerStep(r: seq<byte>, p: int, name: seq<byte>, end: int)
    requires 0 <= p && p + 1 < |r| && r[p] >= 0xC0
    ensures NameStep(r, p, name, end) == Hop(PointerTarget(r, p), p + 2)
  {
    PointerArithmetic(r, p);
  }

  /** A length byte below 0xC0 at i reads that many bytes as a label and
      looks at the byte after it to decide on a '.'. */
  lemma {:induction false} LabelStep(r: seq<byte>, i: int, l: seq<byte>, name: seq<byte>, end: int)
    requires 0 <= i < |r| && r[i] == |l| && 0 < |l| < 0xC0
    requires i + 1 + |l| < |r| && r[i + 1..i + 1 + |l|] == l
    ensures var next := i + 1 + |l|;
            NameStep(r, i, name, end) == Append(next, name + l + Sep(r[next]))
  {
    SliceInBounds(r, i + 1, i + 1 + |l|);
  }

  /** A zero byte ends the name; `end` is set only if no pointer set it. */
  lemma {:induction false} ZeroStep(r: seq<byte>, i: int, name: seq<byte>, end: int)
    requires 0 <= i < |r| && r[i] == 0
    ensures NameStep(r, i, name, end) == Stop(Success((name, if end == 0 then i + 1 else end)))
  {
  }

  /** The loop stops with the step's result. */
  lemma {:induction false} UnfoldStop(r: seq<byte>, i: int, name: seq<byte>, end: int, fuel: nat,
                   v: Result<(seq<byte>, int)>)
    requires NameStep(r, i, name, end) == Stop(v)
    ensures NameLoop(r, i, name, end, fuel) == v
  {
  }

  /** A hop costs one unit of fuel. */
  lemma {:induction false} UnfoldHop(r: seq<byte>, i: int, name: seq<byte>, end: int, fuel: nat, target: int, e: int)
    requires NameStep(r, i, name, end) == Hop(target, e)
    ensures fuel == 0 ==> NameLoop(r, i, name, end, fuel) == Failure(HopLimit)
    ensures fuel > 0 ==> NameLoop(r, i, name, end, fuel) == NameLoop(r, target, name, e, fuel - 1)
  {
  }

  /** Appending a label costs no fuel. */
  lemma {:induction false} UnfoldAppend(r: seq<byte>, i: int, name: seq<byte>, end: int, fuel: nat, next: int, n: seq<byte>)
    requires NameStep(r, i, name, end) == Append(next, n)
    ensures NameLoop(r, i, name, end, fuel) == NameLoop(r, next, n, end, fuel)
  {
  }

  /** Each hop uses one unit of fuel; none left means HopLimit. */
  lemma {:induction false} PointerHop(r: seq<byte>, p: int, name: seq<byte>, end: int, fuel: nat)
    requires 0 <= p && p + 1 < |r| && r[p] >= 0xC0
    ensures fuel == 0 ==> NameLoop(r, p, name, end, fuel) == Failure(HopLimit)
    ensures fuel > 0 ==> NameLoop(r, p, name, end, fuel)
                         == NameLoop(r, PointerTarget(r, p), name, p + 2, fuel - 1)
  {
    PointerStep(r, p, name, end);
    UnfoldHop(r, p, name, end, fuel, PointerTarget(r, p), p + 2);
  }

  /** A label is appended and decoding goes on after it, with the same fuel. */
  lemma {:induction false} LabelAppend(r: seq<byte>, i: int, l: seq<byte>, name: seq<byte>, end: int, fuel: nat)
    requires 0 <= i < |r| && r[i] == |l| && 0 < |l| < 0xC0
    requires i + 1 + |l| < |r| && r[i + 1..i + 1 + |l|] == l
    ensures var next := i + 1 + |l|;
            NameLoop(r, i, name, end, fuel)
            == NameLoop(r, next, name + l + Sep(r[next]), end, fuel)
  {
    var next := i + 1 + |l|;
    LabelStep(r, i, l, name, end);
    UnfoldAppend(r, i, name, end, fuel, next, name + l + Sep(r[next]));
  }

  /** A run of valid labels is read label by label: the name grows by the
      labels joined with '.', plus one more '.' when the byte after the run
      is not zero; `end` is untouched. */
  lemma {:induction false} DecodeRun(r: seq<byte>, i: int, ls: seq<seq<byte>>,
                                     name: seq<byte>, end: int, fuel: nat)
    requires ValidLabels(ls) && |ls| >= 1
    requires RunAt(r, i, ls) && i + RunSize(ls) < |r|
    ensures var j := i + RunSize(ls);
            NameLoop(r, i, name, end, fuel)
            == NameLoop(r, j, name + Join(ls, Dot) + Sep(r[j]), end, fuel)
    decreases |ls|
  {
    RunAtCons(r, i, ls);
    var l, rest := ls[0], ls[1..];
    var next, j := i + 1 + |l|, i + RunSize(ls);
    LabelAppend(r, i, l, name, end, fuel);
    if |rest| == 0 {
      JoinOne(ls, name, Sep(r[j]));
    } else {
      RunAtCons(r, next, rest);
      assert Sep(r[next]) == [Dot];
      DecodeRun(r, next, rest, name + l + [Dot], end, fuel);
      JoinCons(ls, name, Sep(r[j]));
    }
  }

  /** The first label of a run, and the rest of the run after it. */
  lemma {:induction false} RunAtCons(r: seq<byte>, i: int, ls: seq<seq<byte>>)
    requires ValidLabels(ls) && |ls| >= 1 && RunAt(r, i, ls)
    ensures 0 <= i && r[i] == |ls[0]| && 0 < |ls[0]| < 0xC0 && i + 1 + |ls[0]| <= |r|
    ensures r[i + 1..i + 1 + |ls[0]|] == ls[0]
    ensures ValidLabels(ls[1..]) && RunAt(r, i + 1 + |ls[0]|, ls[1..])
    ensures RunSize(ls) == 1 + |ls[0]| + RunSize(ls[1..])
  {
    assert ValidLabel(ls[0]);
  }

  lemma {:induction false} JoinOne(ls: seq<seq<byte>>, name: seq<byte>, sep: seq<byte>)
    requires |ls| == 1
    ensures name + ls[0] + sep == name + Join(ls, Dot) + sep
  {
  }

  lemma {:induction false} JoinCons(ls: seq<seq<byte>>, name: seq<byte>, sep: seq<byte>)
    requires |ls| >= 2
    ensures name + ls[0] + [Dot] + Join(ls[1..], Dot) + sep == name + Join(ls, Dot) + sep
  {
    assert Join(ls, Dot) == ls[0] + [Dot] + Join(ls[1..], Dot);
  }

  /** An uncompressed name decodes to its labels joined with '.', with no
      trailing dot; the resumption point is just past the zero byte unless
      an earlier pointer already set it. */
  lemma {:induction false} DecodeLabels(r: seq<byte>, i: int, ls: seq<seq<byte>>,
                     name: seq<byte>, end: int, fuel: nat)
    requires NameAt(r, i, ls)
    ensures NameLoop(r, i, name, end, fuel)
            == Success((name + Join(ls, Dot), if end == 0 then i + RunSize(ls) + 1 else end))
  {
    var j := i + RunSize(ls);
    var n := name + Join(ls, Dot);
    if |ls| == 0 {
      NoLabels(ls, name);
    } else {
      NoDot(n);
      DecodeRun(r, i, ls, name, end, fuel);
    }
    Terminator(r, j, n, end, fuel);
  }

  lemma NoLabels(ls: seq<seq<byte>>, name: seq<byte>)
    requires |ls| == 0
    ensures name + Join(ls, Dot) == name
  {
  }

  lemma NoDot(n: seq<byte>)
    ensures n + Sep(0) == n
  {
    assert Sep(0) == [];
  }

  /** A zero byte ends the loop. */
  lemma {:induction false} Terminator(r: seq<byte>, i: int, name: seq<byte>, end: int, fuel: nat)
    requires 0 <= i < |r| && r[i] == 0
    ensures NameLoop(r, i, name, end, fuel) == Success((name, if end == 0 then i + 1 else end))
  {
    ZeroStep(r, i, name, end);
    UnfoldStop(r, i, name, end, fuel, Success((name, if end == 0 then i + 1 else end)));
  }

  /** The two bytes at p are a compression pointer to t. */
  predicate PointerAt(r: seq<byte>, p: int, t: nat)
  {
    0 <= p && p + 1 < |r| && r[p] >= 0xC0 && PointerTarget(r, p) == t
  }

  lemma {:induction false} OccursPointerAt(r: seq<byte>, p: int, t: nat)
    requires t < 0x4000 && Occurs(r, p, PointerTo(t))
    ensures PointerAt(r, p, t)
  {
    OccursAsSlice(r, p, PointerTo(t));
    assert r[p] == r[p..p + 2][0] && r[p + 1] == r[p..p + 2][1];
  }

  /** Round trip of the uncompressed wire form through `parse_name`. */
  lemma {:induction false} ParseNameLabels(r: seq<byte>, i: int, ls: seq<seq<byte>>)
    requires ValidLabels(ls) && Occurs(r, i, EncodeLabels(ls))
    ensures ParseName(i, r) == Success((Join(ls, Dot), i + |EncodeLabels(ls)|))
  {
    OccursNameAt(r, i, ls);
    LabelsDecode(r, i, ls);
  }

  lemma {:induction false} LabelsDecode(r: seq<byte>, i: int, ls: seq<seq<byte>>)
    requires NameAt(r, i, ls)
    ensures ParseName(i, r) == Success((Join(ls, Dot), i + RunSize(ls) + 1))
  {
    DecodeLabels(r, i, ls, [], 0, HopBound(r));
    assert [] + Join(ls, Dot) == Join(ls, Dot);
  }

  /** A name that is a single pointer to an uncompressed name decodes to that
      name, and the caller resumes right after the two pointer bytes. */
  lemma {:induction false} ParseNamePointer(r: seq<byte>, p: int, t: nat, ls: seq<seq<byte>>)
    requires t < 0x4000 && Occurs(r, p, PointerTo(t))
    requires ValidLabels(ls) && Occurs(r, t, EncodeLabels(ls))
    ensures ParseName(p, r) == Success((Join(ls, Dot), p + 2))
  {
    OccursPointerAt(r, p, t);
    OccursNameAt(r, t, ls);
    PointerParse(r, p, t, ls);
  }

  lemma {:induction false} PointerParse(r: seq<byte>, p: int, t: nat, ls: seq<seq<byte>>)
    requires PointerAt(r, p, t) && NameAt(r, t, ls)
    ensures ParseName(p, r) == Success((Join(ls, Dot), p + 2))
  {
    PointerThen(r, p, t, ls, [], 0, HopBound(r));
    assert [] + Join(ls, Dot) == Join(ls, Dot);
  }

  /** A pointer to an uncompressed name appends that name and makes the
      resumption point the pointer + 2, whatever it was before. */
  lemma {:induction false} PointerThen(r: seq<byte>, p: int, t: nat, ls: seq<seq<byte>>, name: seq<byte>, end: int, fuel: nat)
    requires PointerAt(r, p, t) && NameAt(r, t, ls) && fuel >= 1
    ensures NameLoop(r, p, name, end, fuel) == Success((name + Join(ls, Dot), p + 2))
  {
    DecodeLabels(r, t, ls, name, p + 2, fuel - 1);
    PointerResult(r, p, t, name, end, fuel, Success((name + Join(ls, Dot), p + 2)));
  }

  /** Whatever decoding at the target gives (with p + 2 as resumption point
      and one hop less) is what decoding at the pointer gives. */
  lemma {:induction false} PointerResult(r: seq<byte>, p: int, t: nat, name: seq<byte>, end: int, fuel: nat,
                      v: Result<(seq<byte>, int)>)
    requires PointerAt(r, p, t) && fuel >= 1 && NameLoop(r, t, name, p + 2, fuel - 1) == v
    ensures NameLoop(r, p, name, end, fuel) == v
  {
    PointerStep(r, p, name, end);
    UnfoldHop(r, p, name, end, fuel, t, p + 2);
  }

  /** Labels followed by a pointer (the usual suffix compression): the name
      is the inline labels, '.', then the pointed-to labels; the caller
      resumes after the pointer. */
  lemma {:induction false} ParseNameSuffix(r: seq<byte>, i: int, pre: seq<seq<byte>>, t: nat, ls: seq<seq<byte>>)
    requires ValidLabels(pre) && |pre| >= 1 && t < 0x4000
    requires Occurs(r, i, LabelRun(pre) + PointerTo(t))
    requires ValidLabels(ls) && |ls| >= 1 && Occurs(r, t, EncodeLabels(ls))
    ensures ParseName(i, r)
            == Success((Join(pre + ls, Dot), i + RunSize(pre) + 2))
  {
    SuffixBridge(r, i, pre, t);
    OccursNameAt(r, t, ls);
    SuffixParse(r, i, pre, t, ls);
  }

  lemma {:induction false} SuffixBridge(r: seq<byte>, i: int, pre: seq<seq<byte>>, t: nat)
    requires ValidLabels(pre) && t < 0x4000
    requires Occurs(r, i, LabelRun(pre) + PointerTo(t))
    ensures RunAt(r, i, pre) && PointerAt(r, i + RunSize(pre), t)
  {
    OccursSplit(r, i, LabelRun(pre), PointerTo(t));
    OccursRunAt(r, i, pre);
    OccursPointerAt(r, i + |LabelRun(pre)|, t);
  }

  lemma {:induction false} SuffixParse(r: seq<byte>, i: int, pre: seq<seq<byte>>, t: nat, ls: seq<seq<byte>>)
    requires ValidLabels(pre) && |pre| >= 1 && RunAt(r, i, pre)
    requires PointerAt(r, i + RunSize(pre), t) && NameAt(r, t, ls) && |ls| >= 1
    ensures ParseName(i, r) == Success((Join(pre + ls, Dot), i + RunSize(pre) + 2))
  {
    SuffixDecode(r, i, pre, t, ls, HopBound(r));
  }

  lemma {:induction false} SuffixDecode(r: seq<byte>, i: int, pre: seq<seq<byte>>, t: nat, ls: seq<seq<byte>>, fuel: nat)
    requires ValidLabels(pre) && |pre| >= 1 && RunAt(r, i, pre)
    requires PointerAt(r, i + RunSize(pre), t) && NameAt(r, t, ls) && |ls| >= 1 && fuel >= 1
    ensures NameLoop(r, i, [], 0, fuel) == Success((Join(pre + ls, Dot), i + RunSize(pre) + 2))
  {
    PointerThen(r, i + RunSize(pre), t, ls, Join(pre, Dot) + [Dot], 0, fuel);
    JoinAppend(pre, ls);
    SuffixRun(r, i, pre, fuel, Success((Join(pre + ls, Dot), i + RunSize(pre) + 2)));
  }

  /** The inline labels before a pointer are read as labels joined by '.'
      with one more '.' for the pointer that follows. */
  lemma {:induction false} SuffixRun(r: seq<byte>, i: int, pre: seq<seq<byte>>, fuel: nat,
                                     v: Result<(seq<byte>, int)>)
    requires ValidLabels(pre) && |pre| >= 1 && RunAt(r, i, pre)
    requires i + RunSize(pre) < |r| && r[i + RunSize(pre)] != 0
    requires NameLoop(r, i + RunSize(pre), Join(pre, Dot) + [Dot], 0, fuel) == v
    ensures NameLoop(r, i, [], 0, fuel) == v
  {
    DotBefore(Join(pre, Dot), r[i + RunSize(pre)]);
    DecodeRun(r, i, pre, [], 0, fuel);
  }

  lemma DotBefore(n: seq<byte>, b: byte)
    requires b != 0
    ensures [] + n + Sep(b) == n + [Dot]
  {
    assert [] + n == n;
  }

  lemma {:induction false} JoinAppend(a: seq<seq<byte>>, b: seq<seq<byte>>)
    requires |a| >= 1 && |b| >= 1
    ensures Join(a, Dot) + [Dot] + Join(b, Dot) == Join(a + b, Dot)
  {
    if |a| == 1 {
      assert (a + b)[1..] == b;
    } else {
      assert (a + b)[1..] == a[1..] + b;
      JoinAppend(a[1..], b);
    }
  }

  /** Behaviour of the Python resolver on a chain of two pointers: the resumption point is
      the SECOND pointer + 2, although section 4.1.4 of RFC 1035 makes it the
      first pointer + 2 (the Python resolver overwrites `end` on every hop). */
  lemma {:induction false} PointerChainEnd(r: seq<byte>, p1: int, p2: nat, t: nat, ls: seq<seq<byte>>)
    requires p2 < 0x4000 && t < 0x4000
    requires Occurs(r, p1, PointerTo(p2)) && Occurs(r, p2, PointerTo(t))
    requires ValidLabels(ls) && Occurs(r, t, EncodeLabels(ls))
    ensures ParseName(p1, r) == Success((Join(ls, Dot), p2 + 2))
  {
    OccursPointerAt(r, p1, p2);
    OccursPointerAt(r, p2, t);
    OccursNameAt(r, t, ls);
    ChainDecode(r, p1, p2, t, ls);
  }

  lemma {:induction false} ChainDecode(r: seq<byte>, p1: int, p2: nat, t: nat, ls: seq<seq<byte>>)
    requires PointerAt(r, p1, p2) && PointerAt(r, p2, t) && NameAt(r, t, ls)
    ensures ParseName(p1, r) == Success((Join(ls, Dot), p2 + 2))
  {
    ChainLoop(r, p1, p2, t, ls, HopBound(r));
  }

  lemma {:induction false} ChainLoop(r: seq<byte>, p1: int, p2: nat, t: nat, ls: seq<seq<byte>>, fuel: nat)
    requires PointerAt(r, p1, p2) && PointerAt(r, p2, t) && NameAt(r, t, ls) && fuel >= 2
    ensures NameLoop(r, p1, [], 0, fuel) == Success((Join(ls, Dot), p2 + 2))
  {
    PointerThen(r, p2, t, ls, [], p1 + 2, fuel - 1);
    assert [] + Join(ls, Dot) == Join(ls, Dot);
    PointerResult(r, p1, p2, [], 0, fuel, Success((Join(ls, Dot), p2 + 2)));
  }

  /** A pointer to itself never reaches a terminator: whatever the budget,
      decoding from it runs out of hops (the Python resolver loops forever). */
  lemma {:induction false} SelfPointer(r: seq<byte>, p: nat, name: seq<byte>, end: int, fuel: nat)
    requires PointerAt(r, p, p)
    ensures NameLoop(r, p, name, end, fuel) == Failure(HopLimit)
    decreases fuel
  {
    PointerHop(r, p, name, end, fuel);
    if fuel > 0 {
      SelfPointer(r, p, name, p + 2, fuel - 1);
    }
  }

  /** The hop budget only cuts off runs: once decoding finishes (or fails
      for another reason) with some budget, more budget gives the same. */
  lemma {:induction false} FuelMonotone(r: seq<byte>, i: int, name: seq<byte>, end: int, f: nat, g: nat)
    requires f <= g && NameLoop(r, i, name, end, f) != Failure(HopLimit)
    ensures NameLoop(r, i, name, end, g) == NameLoop(r, i, name, end, f)
    decreases f, |r| - i, 1
  {
    match NameStep(r, i, name, end)
    case Stop(v) =>
      UnfoldStop(r, i, name, end, f, v);
      UnfoldStop(r, i, name, end, g, v);
    case Hop(target, e) =>
      FuelHop(r, i, name, end, f, g, target, e);
    case Append(next, n) =>
      FuelAppend(r, i, name, end, f, g, next, n);
  }

  /** FuelMonotone at a pointer: both budgets spend one hop. */
  lemma {:induction false} FuelHop(r: seq<byte>, i: int, name: seq<byte>, end: int, f: nat, g: nat,
                                   target: int, e: int)
    requires NameStep(r, i, name, end) == Hop(target, e)
    requires f <= g && NameLoop(r, i, name, end, f) != Failure(HopLimit)
    ensures NameLoop(r, i, name, end, g) == NameLoop(r, i, name, end, f)
    decreases f, |r| - i, 0
  {
    HopBoth(r, i, name, end, f, g, target, e);
    FuelMonotone(r, target, name, e, f - 1, g - 1);
  }

  /** A hop that did not exhaust budget f had a unit of it to spend, and
      budget g spends one too. */
  lemma {:induction false} HopBoth(r: seq<byte>, i: int, name: seq<byte>, end: int, f: nat, g: nat,
                                   target: int, e: int)
    requires NameStep(r, i, name, end) == Hop(target, e)
    requires f <= g && NameLoop(r, i, name, end, f) != Failure(HopLimit)
    ensures 0 < f && NameLoop(r, i, name, end, f) == NameLoop(r, target, name, e, f - 1)
    ensures NameLoop(r, i, name, end, g) == NameLoop(r, target, name, e, g - 1)
  {
    UnfoldHop(r, i, name, end, f, target, e);
    UnfoldHop(r, i, name, end, g, target, e);
  }

  /** FuelMonotone at a label: both budgets go on unchanged. */
  lemma {:induction false} FuelAppend(r: seq<byte>, i: int, name: seq<byte>, end: int, f: nat, g: nat,
                                      next: int, n: seq<byte>)
    requires NameStep(r, i, name, end) == Append(next, n)
    requires f <= g && NameLoop(r, i, name, end, f) != Failure(HopLimit)
    ensures NameLoop(r, i, name, end, g) == NameLoop(r, i, name, end, f)
    decreases f, |r| - i, 0
  {
    UnfoldAppend(r, i, name, end, f, next, n);
    UnfoldAppend(r, i, name, end, g, next, n);
    FuelMonotone(r, next, n, end, f, g);
  }
}

=== FILE: query.dfy ===
/** `create_query`: the 12-byte header and the single question (QTYPE A,
    QCLASS IN) of a query with recursion not desired, laid out as in section 4.1
    of RFC 1035. Domain names are Unicode strings and their labels are sent
    as UTF-8, while each length byte counts characters, not bytes. */
module Query {
  import opened Results
  import opened Bytes
  import opened Labels

  /** The UTF-8 encoding of one Unicode scalar value (RFC 3629). */
  function Utf8Char(c: char): (e: seq<byte>)
    ensures 1 <= |e| <= 4
    ensures |e| == 1 <==> (c as int) < 0x80
    ensures (c as int) < 0x80 ==> e == [c as int]
    ensures |e| > 1 ==> forall k :: 0 <= k < |e| ==> e[k] >= 0x80
  {
    var v := c as int;
    if v < 0x80 then [v]
    else if v < 0x800 then [0xC0 + v / 64, 0x80 + v % 64]
    else if v < 0x10000 then [0xE0 + v / 4096, 0x80 + (v / 64) % 64, 0x80 + v % 64]
    else [0xF0 + v / 0x40000, 0x80 + (v / 4096) % 64, 0x80 + (v / 64) % 64, 0x80 + v % 64]
  }

  /** `bytes(s, 'utf-8')`: one to four bytes per character. */
  function Utf8(s: string): (e: seq<byte>)
    ensures |s| <= |e| <= 4 * |s|
  {
    if |s| == 0 then [] else Utf8Char(s[0]) + Utf8(s[1..])
  }

  predicate Ascii(s: string)
  {
    forall k :: 0 <= k < |s| ==> (s[k] as int) < 0x80
  }

  /** UTF-8 is a homomorphism from strings to byte strings. */
  lemma {:induction false} Utf8Append(a: string, b: string)
    ensures Utf8(a + b) == Utf8(a) + Utf8(b)
    decreases |a|
  {
    if |a| > 0 {
      assert (a + b)[1..] == a[1..] + b;
      Utf8Append(a[1..], b);
    } else {
      assert a + b == b;
    }
  }

  /** A string's UTF-8 encoding is at least as long as the string, and
      exactly as long precisely when every character is ASCII: only then
      does the Python resolver's length byte (a character count) match the
      bytes that follow it. */
  lemma {:induction false} Utf8Length(s: string)
    ensures |Utf8(s)| >= |s|
    ensures |Utf8(s)| == |s| <==> Ascii(s)
  {
    if |s| > 0 {
      Utf8Length(s[1..]);
      if Ascii(s) {
        assert Ascii(s[1..]) by {
          forall k | 0 <= k < |s| - 1 ensures (s[1..][k] as int) < 0x80 {
            assert s[1..][k] == s[k + 1];
          }
        }
      } else if (s[0] as int) < 0x80 {
        assert !Ascii(s[1..]) by {
          var k :| 0 <= k < |s| && (s[k] as int) >= 0x80;
          assert s[1..][k - 1] == s[k];
        }
      }
    }
  }

  /** On ASCII text UTF-8 is the identity on code points. */
  lemma {:induction false} Utf8OfAscii(s: string)
    requires Ascii(s)
    ensures |Utf8(s)| == |s|
    ensures forall k :: 0 <= k < |s| ==> Utf8(s)[k] == s[k] as int
  {
    if |s| > 0 {
      assert Ascii(s[1..]) by {
        forall k | 0 <= k < |s| - 1 ensures (s[1..][k] as int) < 0x80 {
          assert s[1..][k] == s[k + 1];
        }
      }
      Utf8OfAscii(s[1..]);
      forall k | 1 <= k < |s| ensures Utf8(s)[k] == s[k] as int {
        assert Utf8(s)[k] == Utf8(s[1..])[k - 1];
        assert s[1..][k - 1] == s[k];
      }
    }
  }

  /** The UTF-8 encoding of each label. */
  function Utf8Labels(ls: seq<string>): (bs: seq<seq<byte>>)
    ensures |bs| == |ls|
    ensures forall k :: 0 <= k < |ls| ==> bs[k] == Utf8(ls[k])
  {
    if |ls| == 0 then [] else [Utf8(ls[0])] + Utf8Labels(ls[1..])
  }

  /** Encoding the labels and joining them with '.' is encoding the joined
      string, since '.' is ASCII. */
  lemma {:induction false} Utf8Join(ls: seq<string>)
    ensures Utf8(Join(ls, '.')) == Join(Utf8Labels(ls), Dot)
  {
    if |ls| >= 2 {
      var bs := Utf8Labels(ls);
      Utf8Join(ls[1..]);
      assert Utf8Labels(ls[1..]) == bs[1..];
      Utf8Append(ls[0] + ['.'], Join(ls[1..], '.'));
      Utf8Append(ls[0], ['.']);
      assert Utf8(['.']) == [Dot];
    }
  }

  /** The label sequence create_query sends for a domain name. */
  function QueryLabels(domain: string): seq<string>
  {
    Split(domain, '.')
  }

  /** The Python resolver's `for label in labels:` loop: a length byte (a character
      count, OverflowError from `to_bytes` when it is 256 or more) and then
      the label's UTF-8 bytes. */
  function EncodeRun(ls: seq<string>): (res: Result<seq<byte>>)
    ensures res.Success? <==> forall k :: 0 <= k < |ls| ==> |ls[k]| < 256
    ensures res.Failure? ==> res.error == OverflowError
  {
    if |ls| == 0 then Success([])
    else
      var n :- ToBytes(|ls[0]|, 1);
      var rest :- EncodeRun(ls[1..]);
      Success(n + Utf8(ls[0]) + rest)
  }

  /** QNAME: the label run and a zero byte. */
  function EncodeQName(ls: seq<string>): (res: Result<seq<byte>>)
    ensures res.Success? <==> forall k :: 0 <= k < |ls| ==> |ls[k]| < 256
    ensures res.Success? ==> |res.value| >= 1 && res.value[|res.value| - 1] == 0
  {
    var run :- EncodeRun(ls);
    Success(run + [0])
  }

  /** Header fields after the ID: flags 0 (a standard query, recursion not
      desired), QDCOUNT 1, ANCOUNT, NSCOUNT and ARCOUNT 0. */
  const HeaderTail: seq<byte> := [0, 0, 0, 1, 0, 0, 0, 0, 0, 0]

  /** QTYPE 1 (A) and QCLASS 1 (IN). */
  const QuestionTail: seq<byte> := [0, 1, 0, 1]

  /** `create_query(id, domain_name)`. Fails with OverflowError when the id
      is not a 16-bit unsigned value or some label has 256 or more
      characters. */
  function CreateQuery(id: int, domain: string): (res: Result<seq<byte>>)
    ensures res.Success? <==>
              0 <= id < 0x10000 && forall k :: 0 <= k < |QueryLabels(domain)| ==> |QueryLabels(domain)[k]| < 256
    ensures res.Failure? ==> res.error == OverflowError
    ensures res.Success? ==>
              var q := res.value;
              |q| >= 17 && FromBytes(q[0..2]) == id && q[2..12] == HeaderTail
              && q[|q| - 4..] == QuestionTail && q[|q| - 5] == 0
  {
    var first :- ToBytes(id, 2);
    var qname :- EncodeQName(QueryLabels(domain));
    var q := first + HeaderTail + qname + QuestionTail;
    assert q[0..2] == first && q[2..12] == HeaderTail;
    Success(q)
  }

  /** Labels whose wire form is exactly what the decoder expects, within
      the limit of section 2.3.4 of RFC 1035: 1 to 63 characters, all
      ASCII. */
  predicate WellFramed(ls: seq<string>)
  {
    forall k :: 0 <= k < |ls| ==> 1 <= |ls[k]| <= 63 && Ascii(ls[k])
  }

  /** On well-framed labels the Python resolver's encoder writes the uncompressed
      wire form of their UTF-8 bytes. */
  lemma {:induction false} EncodeRunFramed(ls: seq<string>)
    requires WellFramed(ls)
    ensures ValidLabels(Utf8Labels(ls))
    ensures EncodeRun(ls) == Success(LabelRun(Utf8Labels(ls)))
  {
    var bs := Utf8Labels(ls);
    forall k | 0 <= k < |ls| ensures ValidLabel(bs[k]) {
      Utf8Length(ls[k]);
    }
    if |ls| > 0 {
      Utf8Length(ls[0]);
      assert Utf8Labels(ls[1..]) == bs[1..];
      EncodeRunFramed(ls[1..]);
      DecodeEncode(|ls[0]|, 1);
      assert ToBytes(|ls[0]|, 1) == Success([|ls[0]|]);
    }
  }

  /** The query's layout when every label is well framed: header, the
      uncompressed name, QTYPE and QCLASS. */
  lemma {:induction false} QueryLayout(id: int, domain: string)
    requires 0 <= id < 0x10000 && WellFramed(QueryLabels(domain))
    ensures ValidLabels(Utf8Labels(QueryLabels(domain)))
    ensures CreateQuery(id, domain)
            == Success(Encode(id, 2) + HeaderTail + EncodeLabels(Utf8Labels(QueryLabels(domain))) + QuestionTail)
  {
    EncodeRunFramed(QueryLabels(domain));
  }

  /** Joining the decoded labels of a query gives back the domain name's
      UTF-8 bytes. */
  lemma {:induction false} JoinQueryLabels(domain: string)
    ensures Join(Utf8Labels(QueryLabels(domain)), Dot) == Utf8(domain)
  {
    Utf8Join(QueryLabels(domain));
    JoinSplit(domain, '.');
  }

  /** The encoded run takes one length byte plus the UTF-8 bytes per label. */
  lemma {:induction false} EncodeRunSize(ls: seq<string>)
    requires EncodeRun(ls).Success?
    ensures |EncodeRun(ls).value| == RunSize(Utf8Labels(ls))
  {
    if |ls| > 0 {
      EncodeRunSize(ls[1..]);
      assert Utf8Labels(ls)[1..] == Utf8Labels(ls[1..]);
    }
  }

  /** Every query is 12 header bytes, one length byte and the UTF-8 bytes of
      each label, a zero byte and 4 bytes of QTYPE and QCLASS. */
  lemma {:induction false} QueryLength(id: int, domain: string)
    requires CreateQuery(id, domain).Success?
    ensures |CreateQuery(id, domain).value| == 12 + RunSize(Utf8Labels(QueryLabels(domain))) + 5
  {
    EncodeRunSize(QueryLabels(domain));
  }
}

=== FILE: quirks.dfy ===
/** Concrete messages on which the decoder does what the code says rather
    than what RFC 1035 would call for. */
module Quirks {
  import opened Results
  import opened Bytes
  import opened Labels
  import opened Names
  import opened Message
  import opened Query
  import opened Wire

  /** The record `a A IN 60 10.0.0.1` with an uncompressed owner name. */
  const SampleRecord: seq<byte> := [1, 97, 0, 0, 1, 0, 1, 0, 0, 0, 60, 0, 4, 10, 0, 0, 1]

  /** Read without the owner skip, as an authority is, the sample record
      comes back as written. */
  lemma {:induction false} SampleAsAuthority(r: seq<byte>)
    requires r == SampleRecord
    ensures ParseRecord(0, r, false) == Success(Record([97], TypeA, 1, 60, Raw([10, 0, 0, 1]), 17))
  {
    var owner: seq<seq<byte>>, rdata: seq<byte> := [[97]], [10, 0, 0, 1];
    SampleLayout(r);
    OwnerBytes();
    RecordRoundTrip(r, 0, owner, TypeA, 1, 60, rdata);
    assert Join(owner, Dot) == [97];
    assert Record(Join(owner, Dot), TypeA, 1, 60, Raw(rdata), 0 + |EncodeLabels(owner)| + 10 + |rdata|)
        == Record([97], TypeA, 1, 60, Raw(rdata), 17);
  }

  /** Read with the owner skip, as an answer or an additional is, the
      sample record's fixed part is taken from two bytes after the owner's
      start, inside the name: TYPE 0, CLASS 256, TTL 2^24 and an RDLENGTH of
      15360 whose slice is clamped to the five bytes left, so the next
      record would be looked for far past the buffer. */
  lemma {:induction false} SampleAsAnswer(r: seq<byte>)
    requires r == SampleRecord
    ensures ParseRecord(0, r, true) == Success(Record([97], 0, 256, 0x100_0000, Raw([4, 10, 0, 0, 1]), 15372))
  {
    SampleLayout(r);
    SampleOwner(r);
    SampleSkipped(r);
    RawFields(r, 2, [97], 0, 256, 0x100_0000, 15360, [4, 10, 0, 0, 1]);
    RecordFrom(0, r, true, [97], 3, 2, Record([97], 0, 256, 0x100_0000, Raw([4, 10, 0, 0, 1]), 15372));
  }

  lemma {:induction false} SampleLayout(r: seq<byte>)
    requires r == SampleRecord
    ensures ValidLabels([[97]]) && FixedFits(TypeA, 1, 60, 4)
    ensures Occurs(r, 0, EncodeLabels([[97]]) + (FixedPart(TypeA, 1, 60, 4) + [10, 0, 0, 1]))
  {
    OwnerBytes();
    SampleFixed();
    assert r == [1, 97, 0] + ([0, 1, 0, 1, 0, 0, 0, 60, 0, 4] + [10, 0, 0, 1]);
    OccursWhole(r);
  }

  lemma {:induction false} OwnerBytes()
    ensures ValidLabels([[97]]) && EncodeLabels([[97]]) == [1, 97, 0]
  {
    assert LabelRun([[97]]) == [1] + [97] + LabelRun([]);
  }

  lemma {:induction false} SampleFixed()
    ensures FixedFits(TypeA, 1, 60, 4) && FixedPart(TypeA, 1, 60, 4) == [0, 1, 0, 1, 0, 0, 0, 60, 0, 4]
  {
    Encode16(1);
    Encode16(4);
    assert Encode(60, 4) == Encode(0, 3) + [60];
    assert Encode(0, 3) == Encode(0, 2) + [0];
    Encode16(0);
  }

  /** The two big-endian bytes of a small value. */
  lemma {:induction false} Encode16(v: byte)
    ensures Encode(v, 2) == [0, v]
  {
    assert Encode(v, 2) == Encode(0, 1) + [v];
    assert Encode(0, 1) == Encode(0, 0) + [0];
  }

  /** The owner name "a" is read up to its terminator at offset 2. */
  lemma {:induction false} SampleOwner(r: seq<byte>)
    requires ValidLabels([[97]]) && FixedFits(TypeA, 1, 60, 4)
    requires Occurs(r, 0, EncodeLabels([[97]]) + (FixedPart(TypeA, 1, 60, 4) + [10, 0, 0, 1]))
    ensures ParseName(0, r) == Success(([97], 3))
  {
    OwnerBytes();
    OccursSplit(r, 0, EncodeLabels([[97]]), FixedPart(TypeA, 1, 60, 4) + [10, 0, 0, 1]);
    ParseNameLabels(r, 0, [[97]]);
    assert Join([[97]], Dot) == [97];
  }

  /** The ten bytes after the skip, as fields. */
  lemma {:induction false} SampleSkipped(r: seq<byte>)
    requires r == SampleRecord
    ensures Field(r, 2, 2) == 0 && Field(r, 4, 2) == 256
    ensures Field(r, 6, 4) == 0x100_0000 && Field(r, 10, 2) == 15360
    ensures Slice(r, 12, 15372) == [4, 10, 0, 0, 1]
  {
    SkippedOccurs(r);
    ReadFixed(r, 2, 0, 256, 0x100_0000, 15360);
    SampleTail(r);
  }

  lemma {:induction false} SkippedOccurs(r: seq<byte>)
    requires r == SampleRecord
    ensures FixedFits(0, 256, 0x100_0000, 15360) && Occurs(r, 2, FixedPart(0, 256, 0x100_0000, 15360))
  {
    var f: seq<byte> := [0, 0, 1, 0, 1, 0, 0, 0, 60, 0];
    SkippedFixed();
    assert |r| == 17 && forall k :: 0 <= k < 10 ==> r[2 + k] == f[k];
  }

  lemma {:induction false} SkippedFixed()
    ensures FixedFits(0, 256, 0x100_0000, 15360)
    ensures FixedPart(0, 256, 0x100_0000, 15360) == [0, 0, 1, 0, 1, 0, 0, 0, 60, 0]
  {
    Encode16(0);
    assert Encode(256, 2) == Encode(1, 1) + [0];
    assert Encode(1, 1) == Encode(0, 0) + [1];
    TtlBytes();
    assert Encode(15360, 2) == Encode(60, 1) + [0];
    assert Encode(60, 1) == Encode(0, 0) + [60];
  }

  lemma {:induction false} TtlBytes()
    ensures Encode(0x100_0000, 4) == [1, 0, 0, 0]
  {
    assert Encode(0x100_0000, 4) == Encode(0x1_0000, 3) + [0];
    assert Encode(0x1_0000, 3) == Encode(0x100, 2) + [0];
    assert Encode(0x100, 2) == Encode(1, 1) + [0];
    assert Encode(1, 1) == Encode(0, 0) + [1];
  }

  lemma {:induction false} SampleTail(r: seq<byte>)
    requires r == SampleRecord
    ensures Slice(r, 12, 15372) == [4, 10, 0, 0, 1]
  {
    SliceInBounds(r, 12, 17);
  }
}

module QueryQuirks {
  import opened Results
  import opened Bytes
  import opened Labels
  import opened Names
  import opened Message
  import opened Query
  import opened Wire

  /** The query for "a..b": the empty middle label is sent as a zero byte,
      which ends the name early. */
  const DoubleDotQuery: seq<byte> := [0, 1] + HeaderTail + [1, 97, 0, 1, 98, 0] + QuestionTail

  lemma {:induction false} DoubleDotEncoded(d: string)
    requires d == "a..b"
    ensures CreateQuery(1, d) == Success(DoubleDotQuery)
  {
    DoubleDotLabels(d);
    assert Utf8("a") == [97] && Utf8("b") == [98] && Utf8("") == [];
    RunCons("b", [], []);
    assert ["b"] + [] == ["b"] && [|"b"|] + Utf8("b") + [] == [1, 98];
    RunCons("", ["b"], [1, 98]);
    assert [""] + ["b"] == ["", "b"] && [|""|] + Utf8("") + [1, 98] == [0, 1, 98];
    RunCons("a", ["", "b"], [0, 1, 98]);
    assert ["a"] + ["", "b"] == ["a", "", "b"] && [|"a"|] + Utf8("a") + [0, 1, 98] == [1, 97, 0, 1, 98];
    assert EncodeQName(["a", "", "b"]) == Success([1, 97, 0, 1, 98] + [0]);
    assert [1, 97, 0, 1, 98] + [0] == [1, 97, 0, 1, 98, 0];
    assert Pow256(2) == 0x10000;
    assert Encode(0, 1) == Encode(0, 0) + [0] == [0];
    assert Encode(1, 2) == Encode(0, 1) + [1] == [0, 1];
    assert ToBytes(1, 2) == Success([0, 1]);
  }

  /** One more label in front of an encoded run. */
  lemma {:induction false} RunCons(l: string, rest: seq<string>, t: seq<byte>)
    requires |l| < 256 && EncodeRun(rest) == Success(t)
    ensures EncodeRun([l] + rest) == Success([|l|] + Utf8(l) + t)
  {
    assert ([l] + rest)[1..] == rest;
    assert Encode(|l|, 1) == Encode(0, 0) + [|l|];
  }

  /** "a..b".split('.') has an empty middle label. */
  lemma {:induction false} DoubleDotLabels(d: string)
    requires d == "a..b"
    ensures QueryLabels(d) == ["a", "", "b"]
  {
    SplitChar('b', "", '.');
    assert Split("", '.') == [""];
    assert ['b'] + "" == "b";
    assert Split("b", '.') == ["b"];
    SplitChar('.', "b", '.');
    assert ['.'] + "b" == ".b";
    assert Split(".b", '.') == ["", "b"];
    SplitChar('.', ".b", '.');
    assert ['.'] + ".b" == "..b";
    assert Split("..b", '.') == ["", "", "b"];
    SplitChar('a', "..b", '.');
    assert ['a'] + "..b" == "a..b";
    assert ['a'] + "" == "a";
  }

  /** Split peels one character off the front. */
  lemma {:induction false} SplitChar(c: char, s: string, sep: char)
    ensures Split([c] + s, sep)
            == if c == sep then [""] + Split(s, sep) else [[c] + Split(s, sep)[0]] + Split(s, sep)[1..]
  {
    assert ([c] + s)[1..] == s;
  }

  /** The query for "a..b" parses back as a question for "a": the zero
      byte of the empty label ends the name, and QTYPE and QCLASS are then
      read from the label "b" and the real terminator (354 and 0). */
  lemma {:induction false} DoubleDotDecoded(q: seq<byte>)
    requires q == DoubleDotQuery
    ensures ParseResponse(q) == Success(Response(1, [Question([97], 354, 0)], [], [], []))
  {
    var c: seq<byte> := [1, 97, 0, 1, 98, 0];
    QuerySplit([0, 1], HeaderTail, c, QuestionTail);
    assert Encode(1, 2) == [0, 1];
    ReadHeader(q, 1);
    DoubleDotQuestion(q, c + QuestionTail);
    ResponseFrom(q, 1, Question([97], 354, 0), 19);
  }

  lemma {:induction false} DoubleDotQuestion(q: seq<byte>, e: seq<byte>)
    requires e == [1, 97, 0, 1, 98, 0] + QuestionTail && Occurs(q, 12, e)
    ensures ParseQuestion(12, q) == Success((Question([97], 354, 0), 19))
  {
    DoubleDotFields(q, e);
    assert ParseQuestion(12, q).value.0 == Question([97], 354, 0);
  }

  /** Where the name of the "a..b" query stops, and the two fields read there. */
  lemma {:induction false} DoubleDotFields(q: seq<byte>, e: seq<byte>)
    requires e == [1, 97, 0, 1, 98, 0] + QuestionTail && Occurs(q, 12, e)
    ensures ParseName(12, q) == Success(([97], 15))
    ensures Field(q, 15, 2) == 354 && Field(q, 17, 2) == 0
  {
    OccursWithin(q, 12, e, 0, 3);
    OccursWithin(q, 12, e, 3, 5);
    OccursWithin(q, 12, e, 5, 7);
    assert e[0..3] == EncodeLabels([[97]]);
    assert e[3..5] == Encode(354, 2);
    assert e[5..7] == Encode(0, 2);
    ParseNameLabels(q, 12, [[97]]);
    assert Join([[97]], Dot) == [97];
    ReadBack(q, 15, 354, 2);
    ReadBack(q, 17, 0, 2);
  }

  /** The query for the two-character name U+00E9 U+0061 ("\u00e9a", e acute
      then a): length byte 2, as the name has two characters, followed by
      its three UTF-8 bytes 0xC3 0xA9 0x61. */
  const AccentQuery: seq<byte> := [0, 1] + HeaderTail + [2, 0xC3, 0xA9, 0x61, 0] + QuestionTail

  lemma {:induction false} AccentEncoded(d: string)
    requires d == "\U{E9}a"
    ensures CreateQuery(1, d) == Success(AccentQuery)
  {
    assert Utf8("\U{E9}a") == [0xC3, 0xA9, 0x61];
    assert QueryLabels("\U{E9}a") == ["\U{E9}a"] by {
      SplitChar('a', "", '.');
      assert ['a'] + "" == "a";
      assert Split("a", '.') == ["a"];
      SplitChar('\U{E9}', "a", '.');
      assert ['\U{E9}'] + "a" == "\U{E9}a";
    }
    RunCons("\U{E9}a", [], []);
    assert ["\U{E9}a"] + [] == ["\U{E9}a"] && [|"\U{E9}a"|] + Utf8("\U{E9}a") + [] == [2, 0xC3, 0xA9, 0x61];
    assert EncodeQName(["\U{E9}a"]) == Success([2, 0xC3, 0xA9, 0x61] + [0]);
    assert [2, 0xC3, 0xA9, 0x61] + [0] == [2, 0xC3, 0xA9, 0x61, 0];
    assert Pow256(2) == 0x10000;
    assert Encode(0, 1) == Encode(0, 0) + [0] == [0];
    assert Encode(1, 2) == Encode(0, 1) + [1] == [0, 1];
    assert ToBytes(1, 2) == Success([0, 1]);
  }

  /** The decoder reads that query's first label as the two bytes 0xC3 0xA9
      (valid UTF-8 for the e acute) and, since the byte after them is not
      zero, appends a '.'. It then takes the 0x61 of the "a" (97) for the
      next label's length: the label's slice is clamped to the five bytes
      left (0 0 1 0 1, also valid UTF-8), and the subscript of the byte
      after it, 113, is past the end of the 21-byte query. So the query
      fails to parse back with IndexError at 113. */
  lemma {:induction false} AccentMisframed(q: seq<byte>)
    requires q == AccentQuery
    ensures ParseResponse(q) == Failure(IndexError(113))
  {
    QuerySplit([0, 1], HeaderTail, [2, 0xC3, 0xA9, 0x61, 0], QuestionTail);
    assert Encode(1, 2) == [0, 1];
    ReadHeader(q, 1);
    AccentName(q);
    QuestionsFail(1, 12, q, IndexError(113));
  }

  lemma {:induction false} AccentName(q: seq<byte>)
    requires q == AccentQuery
    ensures ParseName(12, q) == Failure(IndexError(113))
  {
    assert |q| == 21 && q[12] == 2 && q[13] == 0xC3 && q[14] == 0xA9 && q[15] == 0x61;
    assert q[13..15] == [0xC3, 0xA9];
    LabelAppend(q, 12, [0xC3, 0xA9], [], 0, HopBound(q));
    assert NameStep(q, 15, [] + [0xC3, 0xA9] + Sep(q[15]), 0) == Stop(Failure(IndexError(113)));
    UnfoldStop(q, 15, [] + [0xC3, 0xA9] + Sep(q[15]), 0, HopBound(q), Failure(IndexError(113)));
  }
}

=== FILE: resolver.dfy ===
/** The decision `resolve` makes after each response, and the iterative
    resolution it drives, over responses that have already been decoded. */
module Resolver {
  import opened Results
  import opened Bytes
  import opened Message

  /** The bytes of a record's RDATA, which `resolve` formats as a dotted
      address: the raw bytes, or the decoded host name of an NS record. */
  function Payload(d: RData): seq<byte>
  {
    match d
    case Raw(b) => b
    case HostName(h) => h
  }

  /** The position of the first type-A record, or |recs| when there is
      none. */
  function FirstA(recs: seq<Record>): (k: nat)
    ensures k <= |recs|
    ensures k < |recs| ==> recs[k].rtype == TypeA
    ensures forall j :: 0 <= j < k ==> recs[j].rtype != TypeA
  {
    if |recs| == 0 then 0
    else if recs[0].rtype == TypeA then 0
    else 1 + FirstA(recs[1..])
  }

  /** The record at k is the first type-A record of recs. */
  predicate FirstAAt(recs: seq<Record>, k: int)
  {
    0 <= k < |recs| && recs[k].rtype == TypeA && forall j :: 0 <= j < k ==> recs[j].rtype != TypeA
  }

  /** What `resolve` does with a response. */
  datatype Decision =
    | Answer(data: RData)     // a type-A answer: resolution ends with its address
    | Referral(data: RData)   // no answer; the first type-A additional names the next server
    | GiveUp                  // neither: resolution ends without an address

  /** The body of `resolve`'s loop after `query_dns`. The first type-A
      answer ends resolution. Otherwise the first type-A additional is the
      next server, unless its address formats to the empty string (empty
      RDATA), which the Python resolver's `if next_dns_ip:` treats like no server at
      all; later type-A additionals are never looked at. */
  function Step(resp: Response): (d: Decision)
    ensures d.Answer? ==> exists k :: FirstAAt(resp.answers, k) && d.data == resp.answers[k].data
    ensures !d.Answer? ==> forall j :: 0 <= j < |resp.answers| ==> resp.answers[j].rtype != TypeA
    ensures d.Referral? ==>
              && |Payload(d.data)| > 0
              && exists k :: FirstAAt(resp.additionals, k) && d.data == resp.additionals[k].data
  {
    var k := FirstA(resp.answers);
    if k < |resp.answers| then Answer(resp.answers[k].data)
    else
      var m := FirstA(resp.additionals);
      if m < |resp.additionals| && |Payload(resp.additionals[m].data)| > 0 then Referral(resp.additionals[m].data)
      else GiveUp
  }

  /** Step stated on the records themselves: it answers exactly when some
      answer has type A, with the data of the first such answer; it refers
      exactly when no answer has type A and the first type-A additional has
      non-empty data, to that additional's data; otherwise it gives up. */
  lemma {:induction false} StepSpec(resp: Response)
    ensures Step(resp).Answer? <==> exists j :: 0 <= j < |resp.answers| && resp.answers[j].rtype == TypeA
    ensures Step(resp).Answer? ==> exists k :: FirstAAt(resp.answers, k) && Step(resp).data == resp.answers[k].data
    ensures Step(resp).Referral? <==>
              (forall j :: 0 <= j < |resp.answers| ==> resp.answers[j].rtype != TypeA)
              && exists k :: FirstAAt(resp.additionals, k) && |Payload(resp.additionals[k].data)| > 0
    ensures Step(resp).Referral? ==>
              exists k :: FirstAAt(resp.additionals, k) && Step(resp).data == resp.additionals[k].data
  {
    FirstAUnique(resp.answers);
    FirstAUnique(resp.additionals);
  }

  /** The first type-A record is the one FirstA finds. */
  lemma {:induction false} FirstAUnique(recs: seq<Record>)
    ensures forall k :: FirstAAt(recs, k) <==> k == FirstA(recs) < |recs|
  {
  }

  /** How a resolution run ends. */
  datatype End =
    | Resolved(data: RData)   // an answer arrived
    | Unresolved              // a response gave neither an answer nor a usable referral
    | Pending                 // every response modelled was a referral

  /** A run of `resolve`: the servers it was referred to, in order, and how
      it ended. */
  datatype Trace = Trace(referrals: seq<RData>, end: End)

  /** `resolve`'s `while True` loop, driven by `responses[k]`, the reply of
      the k-th server asked (the root first). The Python resolver loops for as long
      as servers keep referring it on; here the loop stops with Pending
      once the given replies run out. */
  function Resolve(responses: seq<Response>): (t: Trace)
    ensures Follows(responses, t)
  {
    if |responses| == 0 then Trace([], Pending)
    else
      match Step(responses[0])
      case Answer(d) => Trace([], Resolved(d))
      case GiveUp => Trace([], Unresolved)
      case Referral(d) =>
        var t := Resolve(responses[1..]);
        FollowsCons(responses, d, t);
        Trace([d] + t.referrals, t.end)
  }

  /** A trace is what the loop does on `responses`: every response before
      the last one taken was a referral to the next server, and the run
      ends on the first response that is not. */
  predicate Follows(responses: seq<Response>, t: Trace)
  {
    && |t.referrals| <= |responses|
    && (forall k :: 0 <= k < |t.referrals| ==> Step(responses[k]) == Referral(t.referrals[k]))
    && match t.end
       case Pending => |t.referrals| == |responses|
       case Resolved(d) => |t.referrals| < |responses| && Step(responses[|t.referrals|]) == Answer(d)
       case Unresolved => |t.referrals| < |responses| && Step(responses[|t.referrals|]) == GiveUp
  }

  /** Resolve follows its responses, and it is the only trace that does:
      two traces that follow the same responses agree on the referrals
      they share, so the shorter one would have to end on a referral. */
  lemma {:induction false} ResolveFollows(responses: seq<Response>, t: Trace)
    ensures Follows(responses, t) <==> t == Resolve(responses)
  {
  }

  /** A referral in front of a trace that follows the remaining replies. */
  lemma {:induction false} FollowsCons(responses: seq<Response>, d: RData, t: Trace)
    requires |responses| > 0 && Step(responses[0]) == Referral(d) && Follows(responses[1..], t)
    ensures Follows(responses, Trace([d] + t.referrals, t.end))
  {
    var u := Trace([d] + t.referrals, t.end);
    forall k | 0 <= k < |u.referrals| ensures Step(responses[k]) == Referral(u.referrals[k]) {
      if k > 0 {
        assert responses[k] == responses[1..][k - 1];
      }
    }
    assert responses[|u.referrals|..] == responses[1..][|t.referrals|..];
  }

  /** Replies that arrive after the run has ended change nothing. */
  lemma {:induction false} ResolveIgnoresLater(responses: seq<Response>, later: seq<Response>)
    requires !Resolve(responses).end.Pending?
    ensures Resolve(responses + later) == Resolve(responses)
    decreases |responses|
  {
    assert (responses + later)[0] == responses[0];
    if Step(responses[0]).Referral? {
      assert (responses + later)[1..] == responses[1..] + later;
      ResolveIgnoresLater(responses[1..], later);
    }
  }

  /** The loop on raw replies: each reply is decoded by `parse_response`
      when it is reached, and a decoding error ends the run with that error
      (the Python resolver lets the exception escape `resolve`). */
  function ResolveReplies(replies: seq<seq<byte>>): (res: Result<Trace>)
    ensures res.Success? ==> |res.value.referrals| <= |replies|
  {
    if |replies| == 0 then Success(Trace([], Pending))
    else
      var resp :- ParseResponse(replies[0]);
      match Step(resp)
      case Answer(d) => Success(Trace([], Resolved(d)))
      case GiveUp => Success(Trace([], Unresolved))
      case Referral(d) =>
        var t :- ResolveReplies(replies[1..]);
        Success(Trace([d] + t.referrals, t.end))
  }

  /** When every reply decodes, the run on raw replies is the run on their
      decoded responses. */
  lemma {:induction false} RepliesDecoded(replies: seq<seq<byte>>, responses: seq<Response>)
    requires |responses| == |replies|
    requires forall k :: 0 <= k < |replies| ==> ParseResponse(replies[k]) == Success(responses[k])
    ensures ResolveReplies(replies) == Success(Resolve(responses))
  {
    if |replies| > 0 {
      assert forall k :: 0 <= k < |replies| - 1 ==> replies[1..][k] == replies[k + 1] && responses[1..][k] == responses[k + 1];
      RepliesDecoded(replies[1..], responses[1..]);
      ReplyStep(replies, responses[0], ResolveReplies(replies[1..]));
      ResolveStep(responses);
    }
  }

  /** When the replies before the k-th all decode to referrals and the
      k-th does not decode, the run fails with that reply's error. */
  lemma {:induction false} RepliesFail(replies: seq<seq<byte>>, responses: seq<Response>, k: nat)
    requires k < |replies| && |responses| == k
    requires forall j :: 0 <= j < k ==> ParseResponse(replies[j]) == Success(responses[j]) && Step(responses[j]).Referral?
    requires ParseResponse(replies[k]).Failure?
    ensures ResolveReplies(replies) == Failure(ParseResponse(replies[k]).error)
    decreases k
  {
    if k > 0 {
      var tail, later := replies[1..], responses[1..];
      forall j | 0 <= j < k - 1
        ensures ParseResponse(tail[j]) == Success(later[j]) && Step(later[j]).Referral?
      {
        assert tail[j] == replies[j + 1] && later[j] == responses[j + 1];
      }
      assert tail[k - 1] == replies[k];
      RepliesFail(tail, later, k - 1);
      ReplyStep(replies, responses[0], ResolveReplies(tail));
    }
  }

  /** One round on raw replies, once the first reply has decoded. */
  lemma {:induction false} ReplyStep(replies: seq<seq<byte>>, resp: Response, rest: Result<Trace>)
    requires |replies| > 0 && ParseResponse(replies[0]) == Success(resp) && rest == ResolveReplies(replies[1..])
    ensures ResolveReplies(replies)
            == match Step(resp)
               case Answer(d) => Success(Trace([], Resolved(d)))
               case GiveUp => Success(Trace([], Unresolved))
               case Referral(d) =>
                 if rest.Success? then Success(Trace([d] + rest.value.referrals, rest.value.end)) else Failure(rest.error)
  {
  }

  /** One round on decoded responses. */
  lemma {:induction false} ResolveStep(responses: seq<Response>)
    requires |responses| > 0
    ensures Resolve(responses)
            == match Step(responses[0])
               case Answer(d) => Trace([], Resolved(d))
               case GiveUp => Trace([], Unresolved)
               case Referral(d) => Trace([d] + Resolve(responses[1..]).referrals, Resolve(responses[1..]).end)
  {
  }
}

=== FILE: results.dfy ===
/** Failure-compatible result type shared by the codec and the resolver.
    The error kinds are the exceptions the Python resolver can raise on the
    paths this model covers, apart from the UTF-8 errors listed as left
    out, plus one modelling addition (HopLimit). */
module Results {

  datatype Error =
    | IndexError(index: int)   // a byte subscript outside the buffer
    | OverflowError            // int.to_bytes given a value that does not fit
    | HopLimit                 // pointer-hop budget exhausted (not in the Python resolver, which loops forever)

  datatype Result<+T> = Success(value: T) | Failure(error: Error) {

    predicate IsFailure() {
      Failure?
    }

    function PropagateFailure<U>(): Result<U>
      requires Failure?
    {
      Failure(error)
    }

    function Extract(): T
      requires Success?
    {
      value
    }
  }
}

=== FILE: sections.dfy ===
/** The section layout `parse_response` reads: the header, then the
    questions from offset 12, then answers, authorities and additionals,
    each section starting where the previous one ended. */
module Sections {
  import opened Results
  import opened Bytes
  import opened Message

  /** resp is laid out in r with its sections ending at j0 (questions), j1
      (answers), j2 (authorities) and j3 (additionals), each as long as the
      header count at offset 4, 6, 8 and 10 says; answers and additionals
      are read with the owner skip, authorities without. */
  predicate SectionsAt(r: seq<byte>, resp: Response, j0: int, j1: int, j2: int, j3: int)
  {
    && resp.id == Field(r, 0, 2)
    && |resp.questions| == Field(r, 4, 2) && QuestionsAt(12, resp.questions, r, j0)
    && |resp.answers| == Field(r, 6, 2) && Chained(j0, resp.answers, r, true, j1)
    && |resp.authorities| == Field(r, 8, 2) && Chained(j1, resp.authorities, r, false, j2)
    && |resp.additionals| == Field(r, 10, 2) && Chained(j2, resp.additionals, r, true, j3)
  }

  /** Any response laid out that way is what `parse_response` returns. */
  lemma {:induction false} SectionsParse(r: seq<byte>, resp: Response, j0: int, j1: int, j2: int, j3: int)
    requires SectionsAt(r, resp, j0, j1, j2, j3)
    ensures ParseResponse(r) == Success(resp)
  {
    ParseQuestionsAt(Field(r, 4, 2), 12, r, resp.questions, j0);
    ParseRecordsChained(Field(r, 6, 2), j0, r, true, resp.answers, j1);
    ParseRecordsChained(Field(r, 8, 2), j1, r, false, resp.authorities, j2);
    ParseRecordsChained(Field(r, 10, 2), j2, r, true, resp.additionals, j3);
  }

  /** Whatever `parse_response` returns is laid out that way. */
  lemma {:induction false} ParseSections(r: seq<byte>)
    requires ParseResponse(r).Success?
    ensures exists j0, j1, j2, j3 :: SectionsAt(r, ParseResponse(r).value, j0, j1, j2, j3)
  {
    var resp := ParseResponse(r).value;
    var qs := ParseQuestions(Field(r, 4, 2), 12, r);
    var an := ParseRecords(Field(r, 6, 2), qs.value.1, r, true);
    var ns := ParseRecords(Field(r, 8, 2), an.value.1, r, false);
    var ar := ParseRecords(Field(r, 10, 2), ns.value.1, r, true);
    ParseQuestionsAt(Field(r, 4, 2), 12, r, qs.value.0, qs.value.1);
    ParseRecordsChained(Field(r, 6, 2), qs.value.1, r, true, an.value.0, an.value.1);
    ParseRecordsChained(Field(r, 8, 2), an.value.1, r, false, ns.value.0, ns.value.1);
    ParseRecordsChained(Field(r, 10, 2), ns.value.1, r, true, ar.value.0, ar.value.1);
    assert SectionsAt(r, resp, qs.value.1, an.value.1, ns.value.1, ar.value.1);
  }
}

=== FILE: wire.dfy ===
/** Round trips through the decoder: resource records and whole messages laid
    out as section 4.1.3 of RFC 1035 describes them, read back by
    `parse_resource` and `parse_response`, and the query `create_query` builds
    read back by `parse_response`. */
module Wire {
  import opened Results
  import opened Bytes
  import opened Labels
  import opened Names
  import opened Message
  import opened Query

  predicate FixedFits(rtype: nat, rclass: nat, ttl: nat, rdlength: nat)
  {
    rtype < 0x10000 && rclass < 0x10000 && ttl < 0x1_0000_0000 && rdlength < 0x10000
  }

  /** The fixed part of a resource record: TYPE, CLASS, TTL and RDLENGTH,
      big-endian. */
  function FixedPart(rtype: nat, rclass: nat, ttl: nat, rdlength: nat): (f: seq<byte>)
    requires FixedFits(rtype, rclass, ttl, rdlength)
    ensures |f| == 10
  {
    Encode(rtype, 2) + Encode(rclass, 2) + Encode(ttl, 4) + Encode(rdlength, 2)
  }

  /** A big-endian field written at j is read back by `parse_unsigned_int`. */
  lemma {:induction false} ReadBack(r: seq<byte>, j: int, v: nat, n: nat)
    requires v < Pow256(n) && Occurs(r, j, Encode(v, n))
    ensures Field(r, j, n) == v
  {
    var x := Field(r, j, n);
    OccursAsSlice(r, j, Encode(v, n));
    UnsignedIntBytes(j, n, r);
    assert Encode(x, n) == r[j..j + n] == Encode(v, n);
    DecodeEncode(x, n);
    DecodeEncode(v, n);
  }

  /** The four fixed fields are read back from where they were written. */
  lemma {:induction false} ReadFixed(r: seq<byte>, j: int, rtype: nat, rclass: nat, ttl: nat, rdlength: nat)
    requires FixedFits(rtype, rclass, ttl, rdlength)
    requires Occurs(r, j, FixedPart(rtype, rclass, ttl, rdlength))
    ensures Field(r, j, 2) == rtype && Field(r, j + 2, 2) == rclass
    ensures Field(r, j + 4, 4) == ttl && Field(r, j + 8, 2) == rdlength
  {
    var a, b, c, d := Encode(rtype, 2), Encode(rclass, 2), Encode(ttl, 4), Encode(rdlength, 2);
    OccursSplit(r, j, a + b + c, d);
    OccursSplit(r, j, a + b, c);
    OccursSplit(r, j, a, b);
    ReadBack(r, j, rtype, 2);
    ReadBack(r, j + 2, rclass, 2);
    ReadBack(r, j + 4, ttl, 4);
    ReadBack(r, j + 8, rdlength, 2);
  }

  /** A record of a type other than NS keeps its RDATA bytes as they are. */
  lemma {:induction false} FieldsRaw(r: seq<byte>, j: int, name: seq<byte>, rtype: nat, rclass: nat, ttl: nat, rdata: seq<byte>)
    requires rtype != TypeNS && FixedFits(rtype, rclass, ttl, |rdata|)
    requires Occurs(r, j, FixedPart(rtype, rclass, ttl, |rdata|) + rdata)
    ensures RecordFields(name, j, r) == Success(Record(name, rtype, rclass, ttl, Raw(rdata), j + 10 + |rdata|))
  {
    OccursSplit(r, j, FixedPart(rtype, rclass, ttl, |rdata|), rdata);
    ReadFixed(r, j, rtype, rclass, ttl, |rdata|);
    OccursSlice(r, j + 10, rdata);
    RawFields(r, j, name, rtype, rclass, ttl, |rdata|, rdata);
  }

  lemma {:induction false} OccursSlice(r: seq<byte>, i: int, e: seq<byte>)
    requires Occurs(r, i, e)
    ensures Slice(r, i, i + |e|) == e
  {
    OccursAsSlice(r, i, e);
    SliceInBounds(r, i, i + |e|);
  }

  /** The fixed fields as read, with RDLENGTH rdlength and the (clamped) slice
      after them being rdata, make a non-NS record with RDATA rdata. */
  lemma {:induction false} RawFields(r: seq<byte>, j: int, name: seq<byte>, rtype: nat, rclass: nat, ttl: nat,
                                     rdlength: nat, rdata: seq<byte>)
    requires rtype != TypeNS && Field(r, j, 2) == rtype && Field(r, j + 2, 2) == rclass
    requires Field(r, j + 4, 4) == ttl && Field(r, j + 8, 2) == rdlength
    requires Slice(r, j + 10, j + 10 + rdlength) == rdata
    ensures RecordFields(name, j, r) == Success(Record(name, rtype, rclass, ttl, Raw(rdata), j + 10 + rdlength))
  {
  }

  /** An NS record's RDATA is read as the host name written there. */
  lemma {:induction false} FieldsHost(r: seq<byte>, j: int, name: seq<byte>, rclass: nat, ttl: nat, host: seq<seq<byte>>)
    requires ValidLabels(host) && FixedFits(TypeNS, rclass, ttl, |EncodeLabels(host)|)
    requires Occurs(r, j, FixedPart(TypeNS, rclass, ttl, |EncodeLabels(host)|) + EncodeLabels(host))
    ensures RecordFields(name, j, r)
            == Success(Record(name, TypeNS, rclass, ttl, HostName(Join(host, Dot)), j + 10 + |EncodeLabels(host)|))
  {
    OccursSplit(r, j, FixedPart(TypeNS, rclass, ttl, |EncodeLabels(host)|), EncodeLabels(host));
    ReadFixed(r, j, TypeNS, rclass, ttl, |EncodeLabels(host)|);
    ParseNameLabels(r, j + 10, host);
    HostFields(r, j, name, rclass, ttl, |EncodeLabels(host)|, Join(host, Dot), j + 10 + |EncodeLabels(host)|);
  }

  lemma {:induction false} HostFields(r: seq<byte>, j: int, name: seq<byte>, rclass: nat, ttl: nat, len: nat,
                                      host: seq<byte>, e: int)
    requires Field(r, j, 2) == TypeNS && Field(r, j + 2, 2) == rclass
    requires Field(r, j + 4, 4) == ttl && Field(r, j + 8, 2) == len
    requires ParseName(j + 10, r) == Success((host, e))
    ensures RecordFields(name, j, r) == Success(Record(name, TypeNS, rclass, ttl, HostName(host), j + 10 + len))
  {
  }

  /** A record is its owner name followed by the fields after it; the owner
      skip puts the fields two bytes after the owner's start, wherever the
      name ends. */
  lemma {:induction false} RecordFrom(i: int, r: seq<byte>, skipOwner: bool, name: seq<byte>, e: int, j: int, rec: Record)
    requires ParseName(i, r) == Success((name, e)) && j == (if skipOwner then i + 2 else e)
    requires RecordFields(name, j, r) == Success(rec)
    ensures ParseRecord(i, r, skipOwner) == Success(rec)
  {
  }

  /** Once the owner name is read, a non-NS record's fields follow at j. */
  lemma {:induction false} RawAfterOwner(r: seq<byte>, i: int, skipOwner: bool, name: seq<byte>, e: int, j: int,
                                         rtype: nat, rclass: nat, ttl: nat, rdata: seq<byte>, next: int)
    requires ParseName(i, r) == Success((name, e)) && j == (if skipOwner then i + 2 else e)
    requires rtype != TypeNS && FixedFits(rtype, rclass, ttl, |rdata|)
    requires Occurs(r, j, FixedPart(rtype, rclass, ttl, |rdata|) + rdata) && next == j + 10 + |rdata|
    ensures ParseRecord(i, r, skipOwner) == Success(Record(name, rtype, rclass, ttl, Raw(rdata), next))
  {
    FieldsRaw(r, j, name, rtype, rclass, ttl, rdata);
    assert Record(name, rtype, rclass, ttl, Raw(rdata), j + 10 + |rdata|) == Record(name, rtype, rclass, ttl, Raw(rdata), next);
    RecordFrom(i, r, skipOwner, name, e, j, Record(name, rtype, rclass, ttl, Raw(rdata), next));
  }

  /** Once the owner name is read, an NS record's fields follow at j. */
  lemma {:induction false} HostAfterOwner(r: seq<byte>, i: int, skipOwner: bool, name: seq<byte>, e: int, j: int,
                                          rclass: nat, ttl: nat, host: seq<seq<byte>>, next: int)
    requires ParseName(i, r) == Success((name, e)) && j == (if skipOwner then i + 2 else e)
    requires ValidLabels(host) && FixedFits(TypeNS, rclass, ttl, |EncodeLabels(host)|)
    requires Occurs(r, j, FixedPart(TypeNS, rclass, ttl, |EncodeLabels(host)|) + EncodeLabels(host))
    requires next == j + 10 + |EncodeLabels(host)|
    ensures ParseRecord(i, r, skipOwner) == Success(Record(name, TypeNS, rclass, ttl, HostName(Join(host, Dot)), next))
  {
    FieldsHost(r, j, name, rclass, ttl, host);
    assert Record(name, TypeNS, rclass, ttl, HostName(Join(host, Dot)), j + 10 + |EncodeLabels(host)|)
        == Record(name, TypeNS, rclass, ttl, HostName(Join(host, Dot)), next);
    RecordFrom(i, r, skipOwner, name, e, j, Record(name, TypeNS, rclass, ttl, HostName(Join(host, Dot)), next));
  }

  /** A record with an uncompressed owner name, read without the owner skip
      (as the authority section is), comes back field for field and the
      next record starts right after its RDATA. */
  lemma {:induction false} RecordRoundTrip(r: seq<byte>, i: int, owner: seq<seq<byte>>,
                                           rtype: nat, rclass: nat, ttl: nat, rdata: seq<byte>)
    requires ValidLabels(owner) && rtype != TypeNS && FixedFits(rtype, rclass, ttl, |rdata|)
    requires Occurs(r, i, EncodeLabels(owner) + (FixedPart(rtype, rclass, ttl, |rdata|) + rdata))
    ensures ParseRecord(i, r, false)
            == Success(Record(Join(owner, Dot), rtype, rclass, ttl, Raw(rdata), i + |EncodeLabels(owner)| + 10 + |rdata|))
  {
    var e := i + |EncodeLabels(owner)|;
    OwnerLabels(r, i, owner, FixedPart(rtype, rclass, ttl, |rdata|) + rdata, e);
    RawAfterName(r, i, Join(owner, Dot), e, rtype, rclass, ttl, rdata);
    assert Record(Join(owner, Dot), rtype, rclass, ttl, Raw(rdata), e + 10 + |rdata|)
        == Record(Join(owner, Dot), rtype, rclass, ttl, Raw(rdata), i + |EncodeLabels(owner)| + 10 + |rdata|);
  }

  /** Without the owner skip, a non-NS record's fields follow its owner. */
  lemma {:induction false} RawAfterName(r: seq<byte>, i: int, name: seq<byte>, e: int,
                                        rtype: nat, rclass: nat, ttl: nat, rdata: seq<byte>)
    requires ParseName(i, r) == Success((name, e))
    requires rtype != TypeNS && FixedFits(rtype, rclass, ttl, |rdata|)
    requires Occurs(r, e, FixedPart(rtype, rclass, ttl, |rdata|) + rdata)
    ensures ParseRecord(i, r, false) == Success(Record(name, rtype, rclass, ttl, Raw(rdata), e + 10 + |rdata|))
  {
    RawAfterOwner(r, i, false, name, e, e, rtype, rclass, ttl, rdata, e + 10 + |rdata|);
  }

  /** The same for an NS record: its RDATA comes back as the host name. */
  lemma {:induction false} NsRecordRoundTrip(r: seq<byte>, i: int, owner: seq<seq<byte>>, rclass: nat, ttl: nat,
                                             host: seq<seq<byte>>)
    requires ValidLabels(owner) && ValidLabels(host) && FixedFits(TypeNS, rclass, ttl, |EncodeLabels(host)|)
    requires Occurs(r, i, EncodeLabels(owner) + (FixedPart(TypeNS, rclass, ttl, |EncodeLabels(host)|) + EncodeLabels(host)))
    ensures ParseRecord(i, r, false)
            == Success(Record(Join(owner, Dot), TypeNS, rclass, ttl, HostName(Join(host, Dot)),
                              i + |EncodeLabels(owner)| + 10 + |EncodeLabels(host)|))
  {
    var e, h := i + |EncodeLabels(owner)|, HostName(Join(host, Dot));
    OwnerLabels(r, i, owner, FixedPart(TypeNS, rclass, ttl, |EncodeLabels(host)|) + EncodeLabels(host), e);
    HostAfterName(r, i, Join(owner, Dot), e, rclass, ttl, host);
    assert Record(Join(owner, Dot), TypeNS, rclass, ttl, h, e + 10 + |EncodeLabels(host)|)
        == Record(Join(owner, Dot), TypeNS, rclass, ttl, h, i + |EncodeLabels(owner)| + 10 + |EncodeLabels(host)|);
  }

  /** Without the owner skip, an NS record's fields follow its owner. */
  lemma {:induction false} HostAfterName(r: seq<byte>, i: int, name: seq<byte>, e: int,
                                         rclass: nat, ttl: nat, host: seq<seq<byte>>)
    requires ParseName(i, r) == Success((name, e))
    requires ValidLabels(host) && FixedFits(TypeNS, rclass, ttl, |EncodeLabels(host)|)
    requires Occurs(r, e, FixedPart(TypeNS, rclass, ttl, |EncodeLabels(host)|) + EncodeLabels(host))
    ensures ParseRecord(i, r, false)
            == Success(Record(name, TypeNS, rclass, ttl, HostName(Join(host, Dot)), e + 10 + |EncodeLabels(host)|))
  {
    HostAfterOwner(r, i, false, name, e, e, rclass, ttl, host, e + 10 + |EncodeLabels(host)|);
  }

  /** An uncompressed owner is read as its labels joined by '.', and what
      follows it starts right after its terminating zero. */
  lemma {:induction false} OwnerLabels(r: seq<byte>, i: int, owner: seq<seq<byte>>, rest: seq<byte>, e: int)
    requires ValidLabels(owner) && Occurs(r, i, EncodeLabels(owner) + rest) && e == i + |EncodeLabels(owner)|
    ensures ParseName(i, r) == Success((Join(owner, Dot), e))
    ensures Occurs(r, e, rest)
  {
    OccursSplit(r, i, EncodeLabels(owner), rest);
    ParseNameLabels(r, i, owner);
  }

  /** A record whose owner is a compression pointer, read with the owner skip
      (as the answer and additional sections are): the owner is the
      pointed-to name and the fixed part is read right after the pointer. */
  lemma {:induction false} PointerOwnerRoundTrip(r: seq<byte>, i: int, t: nat, owner: seq<seq<byte>>,
                                                 rtype: nat, rclass: nat, ttl: nat, rdata: seq<byte>)
    requires t < 0x4000 && ValidLabels(owner) && Occurs(r, t, EncodeLabels(owner))
    requires rtype != TypeNS && FixedFits(rtype, rclass, ttl, |rdata|)
    requires Occurs(r, i, PointerTo(t) + (FixedPart(rtype, rclass, ttl, |rdata|) + rdata))
    ensures ParseRecord(i, r, true)
            == Success(Record(Join(owner, Dot), rtype, rclass, ttl, Raw(rdata), i + 12 + |rdata|))
  {
    PointerOwner(r, i, t, owner, FixedPart(rtype, rclass, ttl, |rdata|) + rdata);
    RawAfterPointer(r, i, Join(owner, Dot), rtype, rclass, ttl, rdata);
  }

  /** With the owner skip, a non-NS record's fields follow two bytes after
      its start. */
  lemma {:induction false} RawAfterPointer(r: seq<byte>, i: int, name: seq<byte>,
                                           rtype: nat, rclass: nat, ttl: nat, rdata: seq<byte>)
    requires ParseName(i, r) == Success((name, i + 2))
    requires rtype != TypeNS && FixedFits(rtype, rclass, ttl, |rdata|)
    requires Occurs(r, i + 2, FixedPart(rtype, rclass, ttl, |rdata|) + rdata)
    ensures ParseRecord(i, r, true) == Success(Record(name, rtype, rclass, ttl, Raw(rdata), i + 12 + |rdata|))
  {
    RawAfterOwner(r, i, true, name, i + 2, i + 2, rtype, rclass, ttl, rdata, i + 12 + |rdata|);
  }

  /** A pointer owner is read as the name it points to, and what follows
      it starts two bytes on. */
  lemma {:induction false} PointerOwner(r: seq<byte>, i: int, t: nat, owner: seq<seq<byte>>, rest: seq<byte>)
    requires t < 0x4000 && ValidLabels(owner) && Occurs(r, t, EncodeLabels(owner))
    requires Occurs(r, i, PointerTo(t) + rest)
    ensures ParseName(i, r) == Success((Join(owner, Dot), i + 2)) && Occurs(r, i + 2, rest)
  {
    OccursSplit(r, i, PointerTo(t), rest);
    ParseNamePointer(r, i, t, owner);
  }

  /** A byte string occurs in itself at offset 0. */
  lemma {:induction false} OccursWhole(r: seq<byte>)
    ensures Occurs(r, 0, r)
  {
    OccursAsSlice(r, 0, r);
    assert r[0..|r|] == r;
  }

  /** Any slice of an occurring string occurs at the matching offset. */
  lemma {:induction false} OccursWithin(r: seq<byte>, i: int, e: seq<byte>, a: nat, b: nat)
    requires Occurs(r, i, e) && a <= b <= |e|
    ensures Occurs(r, i + a, e[a..b])
  {
    OccursAsSlice(r, i, e);
    OccursAsSlice(r, i + a, e[a..b]);
    assert r[i + a..i + b] == r[i..i + |e|][a..b];
  }

  /** A query is its header followed by its question. */
  lemma {:induction false} QuerySplit(a: seq<byte>, b: seq<byte>, c: seq<byte>, d: seq<byte>)
    ensures Occurs(a + b + c + d, 0, a + b) && Occurs(a + b + c + d, |a + b|, c + d)
  {
    assert a + b + c + d == (a + b) + (c + d);
    OccursWhole(a + b + c + d);
    OccursSplit(a + b + c + d, 0, a + b, c + d);
  }

  /** The header create_query writes reads back as the ID, one question and
      empty answer, authority and additional sections. */
  lemma {:induction false} ReadHeader(r: seq<byte>, id: nat)
    requires id < 0x10000 && Occurs(r, 0, Encode(id, 2) + HeaderTail)
    ensures Field(r, 0, 2) == id && Field(r, 4, 2) == 1
    ensures Field(r, 6, 2) == 0 && Field(r, 8, 2) == 0 && Field(r, 10, 2) == 0
  {
    OccursSplit(r, 0, Encode(id, 2), HeaderTail);
    ReadBack(r, 0, id, 2);
    OccursWithin(r, 2, HeaderTail, 2, 4);
    OccursWithin(r, 2, HeaderTail, 4, 6);
    OccursWithin(r, 2, HeaderTail, 6, 8);
    OccursWithin(r, 2, HeaderTail, 8, 10);
    assert HeaderTail[2..4] == Encode(1, 2);
    assert HeaderTail[4..6] == HeaderTail[6..8] == HeaderTail[8..10] == Encode(0, 2);
    ReadBack(r, 4, 1, 2);
    ReadBack(r, 6, 0, 2);
    ReadBack(r, 8, 0, 2);
    ReadBack(r, 10, 0, 2);
  }

  /** QTYPE and QCLASS 1 are read back after the question's name. */
  lemma {:induction false} ReadQuestionTail(r: seq<byte>, e: int)
    requires Occurs(r, e, QuestionTail)
    ensures Field(r, e, 2) == TypeA && Field(r, e + 2, 2) == 1
  {
    OccursWithin(r, e, QuestionTail, 0, 2);
    OccursWithin(r, e, QuestionTail, 2, 4);
    assert QuestionTail[0..2] == QuestionTail[2..4] == Encode(1, 2);
    ReadBack(r, e, 1, 2);
    ReadBack(r, e + 2, 1, 2);
  }

  lemma {:induction false} QuestionFrom(r: seq<byte>, i: int, name: seq<byte>, e: int)
    requires ParseName(i, r) == Success((name, e))
    requires Field(r, e, 2) == TypeA && Field(r, e + 2, 2) == 1
    ensures ParseQuestion(i, r) == Success((Question(name, TypeA, 1), e + 4))
  {
  }

  /** The question create_query writes reads back as the joined labels,
      QTYPE A and QCLASS IN. */
  lemma {:induction false} ReadQuestion(r: seq<byte>, i: int, ls: seq<seq<byte>>)
    requires ValidLabels(ls) && Occurs(r, i, EncodeLabels(ls) + QuestionTail)
    ensures ParseQuestion(i, r) == Success((Question(Join(ls, Dot), TypeA, 1), i + |EncodeLabels(ls)| + 4))
  {
    OccursSplit(r, i, EncodeLabels(ls), QuestionTail);
    ParseNameLabels(r, i, ls);
    ReadQuestionTail(r, i + |EncodeLabels(ls)|);
    QuestionFrom(r, i, Join(ls, Dot), i + |EncodeLabels(ls)|);
  }

  /** A buffer whose header announces exactly one question and no records
      parses to that question alone. */
  lemma {:induction false} ResponseFrom(r: seq<byte>, id: nat, q: Question, end: int)
    requires Field(r, 0, 2) == id && Field(r, 4, 2) == 1
    requires Field(r, 6, 2) == 0 && Field(r, 8, 2) == 0 && Field(r, 10, 2) == 0
    requires ParseQuestion(12, r) == Success((q, end))
    ensures ParseResponse(r) == Success(Response(id, [q], [], [], []))
  {
    QuestionsCons(1, 12, r, q, end);
    assert [q] + [] == [q];
  }

  /** A query laid out as create_query lays it out parses back to its ID
      and its one question. */
  lemma {:induction false} ReadQuery(id: nat, ls: seq<seq<byte>>, name: seq<byte>)
    requires id < 0x10000 && ValidLabels(ls) && name == Join(ls, Dot)
    ensures ParseResponse(Encode(id, 2) + HeaderTail + EncodeLabels(ls) + QuestionTail)
            == Success(Response(id, [Question(name, TypeA, 1)], [], [], []))
  {
    var q := Encode(id, 2) + HeaderTail + EncodeLabels(ls) + QuestionTail;
    QuerySplit(Encode(id, 2), HeaderTail, EncodeLabels(ls), QuestionTail);
    ReadHeader(q, id);
    ReadQuestion(q, 12, ls);
    ResponseFrom(q, id, Question(name, TypeA, 1), 12 + |EncodeLabels(ls)| + 4);
  }

  /** `parse_response` reads back the query `create_query` builds for a
      domain name of well-framed labels: the same ID, one question for the
      name's UTF-8 bytes with QTYPE A and QCLASS IN, and no records. */
  lemma {:induction false} QueryRoundTrip(id: int, domain: string)
    requires 0 <= id < 0x10000 && WellFramed(QueryLabels(domain))
    ensures CreateQuery(id, domain).Success?
    ensures ParseResponse(CreateQuery(id, domain).value)
            == Success(Response(id, [Question(Utf8(domain), TypeA, 1)], [], [], []))
  {
    QueryLayout(id, domain);
    JoinQueryLabels(domain);
    ReadQuery(id, Utf8Labels(QueryLabels(domain)), Utf8(domain));
  }

  /** An uncompressed name at offset 12 is read back up to its terminating
      zero. */
  lemma {:induction false} NameAt12(r: seq<byte>, ls: seq<seq<byte>>, name: seq<byte>, end: int)
    requires ValidLabels(ls) && Occurs(r, 12, EncodeLabels(ls))
    requires name == Join(ls, Dot) && end == 12 + RunSize(ls) + 1
    ensures ParseName(12, r) == Success((name, end))
  {
    ParseNameLabels(r, 12, ls);
    LabelRunSize(ls);
  }

  /** In a query laid out as create_query lays it out, the name at offset 12
      is read back up to its terminating zero. */
  lemma {:induction false} QueryNameAt(q: seq<byte>, id: nat, ls: seq<seq<byte>>, name: seq<byte>, end: int)
    requires id < 0x10000 && ValidLabels(ls) && name == Join(ls, Dot) && end == 12 + RunSize(ls) + 1
    requires q == Encode(id, 2) + HeaderTail + EncodeLabels(ls) + QuestionTail
    ensures ParseName(12, q) == Success((name, end))
  {
    QuerySplit(Encode(id, 2), HeaderTail, EncodeLabels(ls), QuestionTail);
    OccursSplit(q, 12, EncodeLabels(ls), QuestionTail);
    NameAt12(q, ls, name, end);
  }

  /** `parse_name(12, create_query(id, d))` gives the domain name back (as
      its UTF-8 bytes) and the offset of QTYPE, one past the name's
      terminating zero. */
  lemma {:induction false} QueryNameRoundTrip(id: int, domain: string)
    requires 0 <= id < 0x10000 && WellFramed(QueryLabels(domain))
    ensures CreateQuery(id, domain).Success?
    ensures ParseName(12, CreateQuery(id, domain).value)
            == Success((Utf8(domain), 12 + RunSize(Utf8Labels(QueryLabels(domain))) + 1))
  {
    QueryLayout(id, domain);
    QueryNameOf(id, domain, CreateQuery(id, domain).value);
  }

  lemma {:induction false} QueryNameOf(id: int, domain: string, q: seq<byte>)
    requires 0 <= id < 0x10000 && ValidLabels(Utf8Labels(QueryLabels(domain)))
    requires q == Encode(id, 2) + HeaderTail + EncodeLabels(Utf8Labels(QueryLabels(domain))) + QuestionTail
    ensures ParseName(12, q) == Success((Utf8(domain), 12 + RunSize(Utf8Labels(QueryLabels(domain))) + 1))
  {
    JoinQueryLabels(domain);
    QueryNameAt(q, id, Utf8Labels(QueryLabels(domain)), Utf8(domain), 12 + RunSize(Utf8Labels(QueryLabels(domain))) + 1);
  }
}
